=== FILE: README.md ===
# Pen geometry and rendering of topology.js, in Dafny

This project models the core of the topology.js diagram editor. That core covers:
- how a pen's local, possibly parent-relative geometry becomes a cached world rectangle;
- how its connection anchors and its icon sub-rectangle are placed;
- how the renderer turns a pen into an ordered sequence of drawing-context calls;
- how the three arrow shapes of the common diagram set build their outlines.

All coordinates are `real`. A pen's cached "calculative" state is a field of an immutable `Pen` record. The pen table is a `map<string, Pen>`. Each operation is a pure function or a method that returns the updated pen or table.

Modules and files:

- `js_values.dfy` (`JsValues`):
  - `Option`;
  - JavaScript truthiness (`""` is an unset string; `Option<real>` for the icon offsets and extents and the alpha, where the source tells an absent number from zero). The pen's `width`, `height`, `rotate`, `fontSize` and `lineHeight` are plain numbers that are always set; see "## Left out";
  - `Trunc` and `Rem360`, which model the source's `% 360`: the remainder takes the sign of the dividend, unlike Dafny's Euclidean `%`.
- `geometry.dfy` (`Geometry`): points and rectangles. `Consistent` states that `ex`, `ey` and `center` follow from `x`, `y`, `width` and `height`.
- `pens.dfy` (`Pens`): the pen record, the table, and `getParent`.
- `world_rect.dfy` (`WorldRect`): `calcWorldRects`.
- `anchors.dfy` (`Anchors`): `calcWorldAnchors`. The random `s8()` id generator becomes an injected id supply `ids: nat -> string` read from a counter.
- `icon_rect.dfy` (`IconRect`): `calcIconRect`, in two forms:
  - as written (`IconRectAsWritten`);
  - corrected (`IconRectOf`, `CalcIconRect`).
- `render.dfy` (`Render`): `renderPen` as a pure function from the pen, a "path present" flag and the editor options to a `seq<DrawCall>` trace.
- `render_facts.dfy` (`RenderFacts`): the properties of that trace, namely:
  - save/restore balance;
  - fill before the single stroke;
  - state precedence;
  - guarded settings;
  - image aspect and text line spacing.
- `arrows.dfy` (`Arrows`): `leftArrow`, `rightArrow`, `twowayArrow`, as outlines (vertex lists of a closed path) of the pen's world rectangle.

Source paths below are relative to the repository root.

## Model

| member | source | states |
|---|---|---|
| `Pens.GetParent` | packages/core/src/pen/pen.ts:159-165 | The walk up `parentId` ends at a root. A root is its own result. For a child, the result is an entry of the table. |
| `Pens.GetParentOfChild` | packages/core/src/pen/pen.ts:159-165 | A child and its parent have the same root. |
| `Pens.GetParentDeterministic` | packages/core/src/pen/pen.ts:159-165 | The root found does not depend on the walk budget used to bound the recursion. |
| `Geometry.MakeRect` | packages/core/src/pen/pen.ts:378-387 | A rectangle built from position, extent and angle has `ex = x + width`, `ey = y + height` and centre `(x + width/2, y + height/2)`. |
| `WorldRect.CalcWorldRects` | packages/core/src/pen/pen.ts:372-414 | The resolved rectangle is consistent and is what the pen's sidecar stores. Only world-rectangle caches change, and a cached entry other than the pen's own is never touched. A root copies its own position, extent and angle. A child is placed in its parent's rectangle: the cached one when present. Otherwise the parent is resolved first, and exactly that resolution is what the table caches for the parent. The returned table is the parent's resolved table with the pen's own entry stored. For a root, or when the parent is already cached, it is the input table with only the pen's own entry stored. |
| `WorldRect.ChildRect` | packages/core/src/pen/pen.ts:394-405 | A child's rectangle is consistent. Each coordinate or extent of the child is absolute when it is at least 1, and otherwise that fraction of the parent's extent, negative values included. The position is offset by the parent's origin. |
| `WorldRect.RotationComposes` | packages/core/src/pen/pen.ts:389-401 | The resolved angle is the sum of the local angles along the ancestor chain, up to the nearest cached ancestor rectangle or the root. |
| `WorldRect.UnresolvedRotationIsSum` | packages/core/src/pen/pen.ts:401 | In a table with nothing cached, a child's resolved angle is its own angle plus its parent's resolved angle. A root's resolved angle is its own. |
| `WorldRect.GrandchildRotationExample` | packages/core/src/pen/pen.ts:401 | Root at 30 degrees, child at 20 and grandchild at 10: the grandchild resolves to 60. |
| `WorldRect.ResolvesTo` | packages/core/src/pen/pen.ts:378-405 | A consistent rectangle that matches the pen's own fields (for a root), or is placed in the parent's cached rectangle (for a child), is exactly what resolving the pen returns. |
| `WorldRect.ResolutionIsStable` | packages/core/src/pen/pen.ts:389-392 | Resolving again over the table a resolution produced gives the same rectangle, because the caches it filled are what a recomputation uses. |
| `Anchors.PlaceCustoms` | packages/core/src/pen/pen.ts:418-432 | The loop over declared anchors yields exactly the custom ones, in order, each placed on the rectangle. It draws one fresh id per custom anchor without an id. |
| `Anchors.PlaceIntoAppends` | packages/core/src/pen/pen.ts:419-431 | Scanning the remaining declared anchors appends their custom placements to what was placed before. |
| `Anchors.PlaceIntoDraws` | packages/core/src/pen/pen.ts:419-431 | Scanning the remaining declared anchors advances the id counter by the number of unnamed custom anchors. |
| `Anchors.PlaceEachPointwise` | packages/core/src/pen/pen.ts:421-429 | The i-th placed anchor is the i-th custom anchor at `(x + width*ax, y + height*ay)`. It keeps its id when that id is non-empty, and otherwise takes fresh id number `next + (unnamed customs before it)`. |
| `Anchors.PlacedAtOwned` | packages/core/src/pen/pen.ts:423 | Every placed custom anchor carries the pen's id. |
| `Anchors.DefaultAnchors` | packages/core/src/pen/pen.ts:434-462 | Four anchors belonging to the pen, at the top, right, bottom and left edge midpoints of a consistent rectangle. With an injective id supply their ids are pairwise distinct. |
| `Anchors.CalcWorldAnchors` | packages/core/src/pen/pen.ts:416-465 | Only `worldAnchors` changes, and every anchor belongs to the pen. When some declared anchor is custom, the result is exactly the custom anchors placed pointwise, and the counter advances by the number of unnamed customs. Otherwise the result is the four defaults and the counter advances by 4. |
| `Anchors.CustomAnchorInside` | packages/core/src/pen/pen.ts:424-425 | A custom anchor whose fractions lie in [0, 1] lands inside a rectangle of non-negative extent. |
| `IconRect.Offset` | packages/core/src/pen/pen.ts:468-478 | An icon offset is 0 when unset. A nonzero value of magnitude below 1 is scaled by the pen's local extent; any other value is kept. |
| `IconRect.Extent` | packages/core/src/pen/pen.ts:470-485 | An unset extent falls back to the pen's local extent. A nonzero value of magnitude below 1 is scaled by that local extent. When the value is present but zero and the local extent is fractional, the fallback is scaled by that zero and collapses to 0. An absent value with a fractional local extent would give NaN in the source; `ExtentDefined` excludes that case. |
| `IconRect.IconRotation` | packages/core/src/pen/pen.ts:487-492 | The icon angle is `iconRotate` when the parent entry has no world rectangle. Otherwise it is `(iconRotate + parent angle) % 360`, with the sign of the sum kept. |
| `JsValues.Rem360` | packages/core/src/pen/pen.ts:491 | `a % 360` lies strictly between -360 and 360, takes the sign of `a`, and differs from `a` by a whole number of turns. |
| `IconRect.IconRectAsWritten` | packages/core/src/pen/pen.ts:467-503 | The source's icon rectangle has no centre and so is not consistent. Its `ex`/`ey` follow from the extent. Its y offset is the as-written one. |
| `IconRect.IconRectOf` | packages/core/src/pen/pen.ts:467-502 | The corrected icon rectangle is consistent. Its origin is the world origin plus the offsets, its extent comes from `Extent`, and its angle from `IconRotation`. |
| `IconRect.CalcIconRect` | packages/core/src/pen/pen.ts:494-502 | Only `worldIconRect` changes. It becomes a consistent rectangle whose origin is the world origin plus the `Offset`s of `iconLeft` and `iconTop`, whose extent is the `Extent` of `iconWidth` and `iconHeight`, and whose angle is the icon angle. |
| `IconRect.TopFractionReadsLeft` | packages/core/src/pen/pen.ts:476-478 | For a fractional `iconTop` that differs from `iconLeft`, and a nonzero height, the rectangle as written sits at a different height from the corrected one. |
| `IconRect.AsWrittenDiffersInTopAndCenter` | packages/core/src/pen/pen.ts:467-503 | The as-written and corrected rectangles differ only in the y offset and in the missing centre. |
| `IconRect.IconIgnoresOwnRotate` | packages/core/src/pen/pen.ts:487-492 | The icon rectangle does not depend on the pen's own `rotate`. |
| `IconRect.FractionalIconInside` | packages/core/src/pen/pen.ts:472-499 | Fractional offset and width that add up to at most 1 keep the icon horizontally inside the pen's world rectangle, when that rectangle has the pen's own size. |
| `Render.StateOf` | packages/core/src/pen/pen.ts:197-205 | Hover takes precedence over active, and active over the normal state. |
| `Render.RotateAbout` | packages/core/src/pen/pen.ts:186-190 | The rotation is framed by two translations: first to the pivot `c`, then back by `-c`. It therefore turns about `c`. |
| `Render.ImageBox` | packages/core/src/pen/pen.ts:257-276 | The image is centred in the icon rectangle. An explicit `iconWidth`/`iconHeight` replaces that side. With both natural sizes known, the other side follows the natural aspect ratio. |
| `Render.GlyphSize` | packages/core/src/pen/pen.ts:297-303 | The glyph size is `iconSize` when positive, and otherwise the smaller side of the icon rectangle. |
| `Render.BaselineShift` | packages/core/src/pen/pen.ts:345-353 | The baseline share is 0 exactly for `top`, 1 exactly for `bottom`, and 0.5 otherwise. |
| `Render.TextLineCalls` | packages/core/src/pen/pen.ts:354-364 | One text call per line, in order. Each call has the line's text and the common x. Line i sits at `top + (i + shift) * fontSize * lineHeight`. |
| `Render.RenderPen` | packages/core/src/pen/pen.ts:167-370 | Without a path, nothing is drawn. With a path, the trace starts with save and a path reset and ends with restore. |
| `RenderFacts.RenderBalanced` | packages/core/src/pen/pen.ts:177-369 | Every restore of the trace matches an earlier save, and all saves are restored. The same holds between the outer save and restore. |
| `RenderFacts.BodyNeutral` | packages/core/src/pen/pen.ts:178-367 | The calls inside the outer pair are balanced. |
| `RenderFacts.IconNeutral` | packages/core/src/pen/pen.ts:253-316 | The icon branch is balanced. |
| `RenderFacts.TextNeutral` | packages/core/src/pen/pen.ts:318-367 | The text branch is balanced. |
| `RenderFacts.RotationAboutCenter` | packages/core/src/pen/pen.ts:186-190 | With a world angle, the third to fifth calls rotate by that angle about the pen's centre, before any style is set. |
| `RenderFacts.FillDecision` | packages/core/src/pen/pen.ts:196-224 | The fill decision per state. Hover and active fill when their background, or its fallback, is set. The normal state fills from `background` when no background image is configured, and otherwise when the background image or a configured stroke image is loaded. |
| `RenderFacts.StrokeOnceFillFirst` | packages/core/src/pen/pen.ts:250-251 | The trace strokes the path exactly once, and fills it once exactly when a fill was decided. That fill comes immediately before the stroke. |
| `RenderFacts.OnlyPaintPaints` | packages/core/src/pen/pen.ts:177-369 | Setup, icon and text never fill or stroke the path. |
| `RenderFacts.HoverOverrides` | packages/core/src/pen/pen.ts:197-200 | A hovered pen's styles depend only on the hover colours, with option fallbacks, whatever its active flag or normal styles. |
| `RenderFacts.ActiveOverridesNormal` | packages/core/src/pen/pen.ts:201-204 | An active, non-hovered pen's styles depend only on the active colours, with option fallbacks. |
| `RenderFacts.StrokePatternForcesFill` | packages/core/src/pen/pen.ts:206-219 | In the normal state, a loaded stroke image sets a pattern stroke and forces a fill, when a background image is configured. |
| `RenderFacts.BackgroundDecidesFill` | packages/core/src/pen/pen.ts:215-223 | Without a background image, the fill happens exactly when `background` is set, and the fill style is that colour. |
| `RenderFacts.FillWithoutFillStyle` | packages/core/src/pen/pen.ts:206-219 | A loaded stroke image with an unloaded background image fills without setting any fill style. |
| `RenderFacts.TraceMembers` | packages/core/src/pen/pen.ts:177-369 | Helper lemma: a call is in the trace exactly when it is the save, the path reset or the restore, or it comes from one of the steps. The guard lemmas below rest on it. |
| `RenderFacts.LineWidthGuarded` | packages/core/src/pen/pen.ts:192-194 | A line width is set exactly when `lineWidth > 1`, and only to `lineWidth`. |
| `RenderFacts.LineCapGuarded` | packages/core/src/pen/pen.ts:226-230 | A line cap is set exactly when the pen names one or is a line. The value is the named cap, or `round` for a line without one. |
| `RenderFacts.DashGuarded` | packages/core/src/pen/pen.ts:236-241 | A dash pattern is set exactly when one is present, even an empty one, and only to the pen's pattern. A dash offset is set exactly when it is nonzero, and only to that value. |
| `RenderFacts.AlphaGuarded` | packages/core/src/pen/pen.ts:232-234 | An alpha is set exactly when one is present and below 1, and only to that value. |
| `RenderFacts.ShadowGuarded` | packages/core/src/pen/pen.ts:243-248 | Both shadow offsets are set exactly when a shadow colour is set, and only to the pen's `shadowOffsetX` and `shadowOffsetY`. |
| `RenderFacts.ShadowSetup` | packages/core/src/pen/pen.ts:243-248 | Before painting, the shadow colour and blur are set exactly when a shadow colour is set, and only to the pen's `shadowColor` and `shadowBlur`. The icon step later clears both, so this is stated for the setup and not the whole trace. |
| `RenderFacts.SettingSource` | packages/core/src/pen/pen.ts:192-248 | Every line-width, line-cap, alpha, dash-pattern, dash-offset or shadow-offset call (x or y) in the trace comes from its own guarded step. |
| `RenderFacts.ImageKeepsAspect` | packages/core/src/pen/pen.ts:268-274 | When both natural sizes are known, the drawn image has the natural aspect ratio. |
| `RenderFacts.ImageAspectExample` | packages/core/src/pen/pen.ts:268-274 | A 200x100 image with an explicit `iconWidth` is drawn at that width and half its height. |
| `RenderFacts.LineSpacing` | packages/core/src/pen/pen.ts:359-363 | Consecutive text lines are `fontSize * lineHeight` apart. |
| `RenderFacts.FirstLine` | packages/core/src/pen/pen.ts:345-363 | The first line sits at the top of the text rectangle for a `top` baseline, one line lower for `bottom`, and half a line lower for any other baseline. |
| `RenderFacts.AsWrittenIconRectBlocksRotation` | packages/core/src/pen/pen.ts:494-502 | With the source's icon rectangle, a rotated image (`iconRotate`) or glyph (world angle) cannot be drawn, because the rectangle has no centre to pivot on. |
| `RenderFacts.CorrectedIconRectIsReady` | packages/core/src/pen/pen.ts:494-502 | The corrected icon rectangle has everything the renderer reads. |
| `Arrows.LeftArrow` | packages/core/src/common-diagram/arrow.ts:3-35 | No path without a cached world rectangle. Otherwise a closed path whose 8 vertices are the left outline of that rectangle. |
| `Arrows.RightArrow` | packages/core/src/common-diagram/arrow.ts:37-65 | No path without a cached world rectangle. Otherwise a closed path whose 7 vertices are the right outline of that rectangle. |
| `Arrows.TwowayArrow` | packages/core/src/common-diagram/arrow.ts:67-107 | No path without a cached world rectangle. Otherwise a closed path whose 10 vertices are the double-headed outline of that rectangle. |
| `Arrows.Outlined` | packages/core/src/common-diagram/arrow.ts:4-6 | A path exists exactly when the world rectangle is cached. It is then closed and is the outline of that rectangle. |
| `Arrows.ArrowsReadOnlyWorldRect` | packages/core/src/common-diagram/arrow.ts:3-35 | The builders read nothing of the pen but its world rectangle. |
| `Arrows.OutlinesOnBandLines` | packages/core/src/common-diagram/arrow.ts:3-107 | Every vertex of every outline has y in {y, y+h/3, y+h/2, y+2h/3, y+h}. |
| `Arrows.BandLineWithinHeight` | packages/core/src/common-diagram/arrow.ts:42-60 | Those lines lie within [y, y+h] when h >= 0. |
| `Arrows.OutlinesInside` | packages/core/src/common-diagram/arrow.ts:3-107 | When 0 <= h <= 2w, every vertex lies inside the rectangle. |
| `Arrows.LeftRepeatsOneVertex` | packages/core/src/common-diagram/arrow.ts:20-27 | The left outline repeats `(x+h/2, y+2h/3)` at positions 5 and 6. When h != 0 and w != h/2, no other consecutive vertices coincide. |
| `Arrows.LeftMirrorsRight` | packages/core/src/common-diagram/arrow.ts:9-31 | Without its repeat, the left outline is the right outline reflected across the vertical centre line and walked backwards from the tip. |
| `Arrows.TwowaySymmetric` | packages/core/src/common-diagram/arrow.ts:73-103 | The double-headed outline is its own reflection: vertex i maps to vertex (15 - i) mod 10. |
| `Arrows.TwowayJoinsHeads` | packages/core/src/common-diagram/arrow.ts:73-103 | The double-headed outline is the left arrow's head joined to the right arrow's head. |
| `Arrows.Tips` | packages/core/src/common-diagram/arrow.ts:73-87 | The left tip is at `(x, y+h/2)` and the right tip at `(x+w, y+h/2)`. The double-headed outline has both. |
| `Arrows.RightHeadBase` | packages/core/src/common-diagram/arrow.ts:42-60 | The right arrow's head stands on `x + (w - h/2)`, and its shaft runs along the thirds from the left edge. |
| `Arrows.LeftShaft` | packages/core/src/common-diagram/arrow.ts:11-19 | The left arrow's shaft runs along the thirds, from `x + h/2` to the right edge. |
| `Arrows.UnresolvedArrowDrawsNothing` | packages/core/src/common-diagram/arrow.ts:4-6 | A pen without a world rectangle gets no arrow path and so draws nothing. |

## Left out

- The drawing context, `Path2D` and loaded image handles. The context is an abstract call log. A path is its vertex list and a closed flag, and the renderer only gets "path present". An image is a loaded flag plus its natural size.
- Whether an arrow vertex comes from `moveTo` or `lineTo`. An outline starts with the `moveTo` point, and the other vertices follow in `lineTo` order.
- Angle conversion to radians: traces record degrees. Font strings: traces record an abstract font descriptor.
- The canvas2svg `setAttrs` hook (pen.ts lines 181-183): it is an optional foreign call.
- `s8()` randomness: it is an injected id supply plus a counter. Injectivity of the supply is a hypothesis where needed.
- JavaScript `NaN`/`undefined` arithmetic on the fields modelled as `Option`. Preconditions instead demand the fields the source dereferences:
  - `RenderReady`, `IconDefined`, `AsWrittenDefined`;
  - `parentId in pens` for the icon rectangle (the source reads `pens[pen.parentId]` even for a root);
  - `Resolvable` for world rectangles, which bounds the recursion with a ghost depth and requires every needed parent entry to exist.
- Text wrapping: `textLines` and `textDrawRect` are inputs.
- The pen interface's `before*` callbacks, the editor bootstrap in core.ts and the switch widget in switch.ts.
- `WorldRect.CalcWorldRects`, `WorldRect.RotationComposes`, `Anchors.CalcWorldAnchors`, `IconRect.CalcIconRect` and `Render.TextLineCalls`: the pen's optional `width`, `height`, `rotate`, `fontSize` and `lineHeight` (pen.ts lines 33-34, 57, 82-83) are plain numbers in the model, so an unset one reads as 0. In the source an unset one is `undefined`, and the arithmetic on it gives NaN:
  - a root with no `rotate` caches an undefined angle, so its child's angle is NaN (pen.ts lines 383 and 401); NaN is falsy, so the child's glyph is not rotated (pen.ts line 304). `RotationComposes` holds in the source only when every `rotate` on the chain is set;
  - an unset `width` or `height` gives NaN extents, anchors and icon sizes;
  - an unset `fontSize` or `lineHeight` gives NaN text positions.
- `WorldRect.ResolutionIsStable`: excludes a pen that is its own parent. Resolving such a pen moves it again relative to its previous cached rectangle.
- Floating point. Coordinates are exact reals, so these equalities hold exactly in the model but only up to IEEE-754 rounding in the program:
  - the `DefaultAnchors` midpoints `(x + ex) / 2`;
  - the mirror identities `LeftMirrorsRight` and `TwowaySymmetric`;
  - `LineSpacing`;
  - `ImageKeepsAspect`.
- `WorldRect.CalcWorldRects` and `IconRect.IconRotation`: the `calculative` sidecar is always present in the model. An empty sidecar stands for "nothing cached". The source throws when a parent's `calculative` object was never created (pen.ts lines 389 and 488); the model treats such a parent as uncached and resolves it.
- `Pens.GetParent`: requires that the walk reaches a root. On a cycle or a missing parent the source recurses forever or throws.

Modelling choices that follow the code's exact behaviour:
- A world-rectangle coordinate or extent is absolute when it is `>= 1`. A negative value is therefore a fraction of the parent, not an absolute value.
- The icon angle adds `iconRotate` to the parent's angle and takes `% 360` only when the parent has a world rectangle. It is not simply "the parent's angle, normalised".
- In the normal state, a loaded stroke image forces a fill even when no fill style was set (`RenderFacts.FillWithoutFillStyle`).
- The icon rectangle's extents fall back to the pen's local size. If the icon extent is present but zero and the local extent is fractional, the fallback is multiplied by that zero, so it collapses to 0. If the icon extent is absent, the same product is NaN in the source; `IconRect.ExtentDefined` and `IconRect.IconDefined` exclude that input, and the model does not cover it.

## Findings

| source | as written | input that shows it | evidently intended | confidence | as-written member | corrected member |
|---|---|---|---|---|---|---|
| packages/core/src/pen/pen.ts:477 | A fractional `iconTop` is replaced by `pen.height * pen.iconLeft`. | `height = 40`, `iconTop = 0.5`, `iconLeft = 0.25`: the offset is 10, not 20. | `pen.height * pen.iconTop`, mirroring line 473. | not executed; high | `IconRect.TopFractionReadsLeft` | `IconRect.IconRectOf` |
| packages/core/src/pen/pen.ts:494-502 | The icon rectangle is stored without `center`, while `renderPen` rotates about `rect.center` (lines 279 and 307). | An image icon with `iconRotate = 45`, or a glyph icon on a pen whose world angle is nonzero. | The centre is filled in as `(x + width/2, y + height/2)`, like every other rectangle. | not executed; medium | `RenderFacts.AsWrittenIconRectBlocksRotation` | `RenderFacts.CorrectedIconRectIsReady` |

=== FILE: anchors.dfy ===
/** Anchor placement: the connection points of a pen, placed on its world
    rectangle. Fresh anchor ids come from an injected supply `ids`, read at
    consecutive indexes starting from `next`. */
module Anchors {
  import opened JsValues
  import opened Geometry
  import opened Pens

  /** The declared anchors flagged `custom`, in declared order. */
  function Customs(declared: seq<DeclaredAnchor>): seq<DeclaredAnchor>
  {
    if declared == [] then []
    else (if declared[0].custom then [declared[0]] else []) + Customs(declared[1..])
  }

  /** 1 when `a` has no id of its own and so draws a fresh one. */
  function Fresh(a: DeclaredAnchor): nat
  {
    if a.id == "" then 1 else 0
  }

  /** How many of the first `i` anchors draw a fresh id. */
  function Unnamed(anchors: seq<DeclaredAnchor>, i: nat): nat
    requires i <= |anchors|
  {
    if i == 0 then 0 else Fresh(anchors[0]) + Unnamed(anchors[1..], i - 1)
  }

  ghost predicate Injective(ids: nat -> string)
  {
    forall i: nat, j: nat :: i != j ==> ids(i) != ids(j)
  }

  /** Where a declared custom anchor lands: its fractional position scaled
      into the rectangle, its id kept when it has one. */
  function PlaceCustom(a: DeclaredAnchor, r: Rect, penId: string, freshId: string): WorldAnchor
  {
    WorldAnchor(if a.id != "" then a.id else freshId, penId,
                r.x + r.width * a.x, r.y + r.height * a.y,
                a.color, a.background, true)
  }

  /** The four default anchors, at the top, right, bottom and left edge
      midpoints, with ids `ids(next)` to `ids(next + 3)`. */
  function DefaultAnchors(r: Rect, penId: string, ids: nat -> string, next: nat): (placed: seq<WorldAnchor>)
    ensures |placed| == 4
    ensures forall a :: a in placed ==> a.penId == penId && !a.custom
    ensures Consistent(r) ==>
      && placed[0].x == (r.x + r.ex) / 2.0 && placed[0].y == r.y
      && placed[1].x == r.ex && placed[1].y == (r.y + r.ey) / 2.0
      && placed[2].x == (r.x + r.ex) / 2.0 && placed[2].y == r.ey
      && placed[3].x == r.x && placed[3].y == (r.y + r.ey) / 2.0
    ensures Injective(ids) ==> forall i, j :: 0 <= i < j < 4 ==> placed[i].id != placed[j].id
  {
    [ WorldAnchor(ids(next), penId, r.x + r.width * 0.5, r.y, "", "", false),
      WorldAnchor(ids(next + 1), penId, r.x + r.width, r.y + r.height * 0.5, "", "", false),
      WorldAnchor(ids(next + 2), penId, r.x + r.width * 0.5, r.y + r.height, "", "", false),
      WorldAnchor(ids(next + 3), penId, r.x, r.y + r.height * 0.5, "", "", false) ]
  }

  /** The anchors `cs` placed one after another, each without an id taking
      the next fresh id from `next` on: the reference for the loop in
      `PlaceCustoms`. */
  function PlaceEach(cs: seq<DeclaredAnchor>, r: Rect, penId: string, ids: nat -> string, next: nat): seq<WorldAnchor>
  {
    if cs == [] then []
    else [PlaceCustom(cs[0], r, penId, ids(next))] + PlaceEach(cs[1..], r, penId, ids, next + Fresh(cs[0]))
  }

  /** `placed` holds the anchors `cs` position by position: the i-th one
      placed with fresh id number `next + Unnamed(cs, i)`. */
  predicate PlacedAt(placed: seq<WorldAnchor>, cs: seq<DeclaredAnchor>, r: Rect, penId: string, ids: nat -> string, next: nat)
  {
    && |placed| == |cs|
    && forall i {:trigger placed[i]} :: 0 <= i < |cs| ==> placed[i] == PlaceCustom(cs[i], r, penId, ids(next + Unnamed(cs, i)))
  }

  /** Position by position: the i-th anchor of `cs` is placed with fresh id
      number `next + Unnamed(cs, i)`. */
  lemma {:induction false} PlaceEachPointwise(cs: seq<DeclaredAnchor>, r: Rect, penId: string, ids: nat -> string, next: nat)
    ensures PlacedAt(PlaceEach(cs, r, penId, ids, next), cs, r, penId, ids, next)
  {
    if cs != [] {
      var head := PlaceCustom(cs[0], r, penId, ids(next));
      var rest := PlaceEach(cs[1..], r, penId, ids, next + Fresh(cs[0]));
      PlaceEachPointwise(cs[1..], r, penId, ids, next + Fresh(cs[0]));
      assert PlaceEach(cs, r, penId, ids, next) == [head] + rest;
      forall i | 0 < i < |cs|
        ensures ([head] + rest)[i] == PlaceCustom(cs[i], r, penId, ids(next + Unnamed(cs, i)))
      {
        assert ([head] + rest)[i] == rest[i - 1];
        assert cs[1..][i - 1] == cs[i];
      }
    }
  }

  /** Every anchor placed for a pen belongs to it. */
  lemma PlacedAtOwned(placed: seq<WorldAnchor>, cs: seq<DeclaredAnchor>, r: Rect, penId: string, ids: nat -> string, next: nat)
    requires PlacedAt(placed, cs, r, penId, ids, next)
    ensures forall a :: a in placed ==> a.penId == penId
  {
  }

  /** One step of `PlaceEach` on a custom anchor `a`. */
  lemma PlaceEachCons(a: DeclaredAnchor, rest: seq<DeclaredAnchor>, r: Rect, penId: string, ids: nat -> string, next: nat)
    ensures PlaceEach([a] + rest, r, penId, ids, next)
      == [PlaceCustom(a, r, penId, ids(next))] + PlaceEach(rest, r, penId, ids, next + Fresh(a))
  {
    assert ([a] + rest)[1..] == rest;
  }

  /** One step of `Unnamed` on an anchor `a`. */
  lemma UnnamedCons(a: DeclaredAnchor, rest: seq<DeclaredAnchor>)
    ensures Unnamed([a] + rest, |rest| + 1) == Fresh(a) + Unnamed(rest, |rest|)
  {
    assert ([a] + rest)[1..] == rest;
  }

  /** What the declared anchor `a` adds to the placement: itself, placed
      with fresh id number `used`, when it is custom. */
  function Adds(a: DeclaredAnchor, r: Rect, penId: string, ids: nat -> string, used: nat): seq<WorldAnchor>
  {
    if a.custom then [PlaceCustom(a, r, penId, ids(used))] else []
  }

  /** How many fresh ids the declared anchor `a` draws during placement. */
  function Draws(a: DeclaredAnchor): nat
  {
    if a.custom then Fresh(a) else 0
  }

  /** The placement of the customs of `todo` splits into what its first
      anchor adds and the placement of the customs after it. */
  lemma PlaceStep(todo: seq<DeclaredAnchor>, r: Rect, penId: string, ids: nat -> string, used: nat)
    requires todo != []
    ensures PlaceEach(Customs(todo), r, penId, ids, used)
      == Adds(todo[0], r, penId, ids, used) + PlaceEach(Customs(todo[1..]), r, penId, ids, used + Draws(todo[0]))
    ensures Unnamed(Customs(todo), |Customs(todo)|)
      == Draws(todo[0]) + Unnamed(Customs(todo[1..]), |Customs(todo[1..])|)
  {
    var a := todo[0];
    var rest := Customs(todo[1..]);
    if a.custom {
      assert Customs(todo) == [a] + rest;
      PlaceEachCons(a, rest, r, penId, ids, used);
      UnnamedCons(a, rest);
    } else {
      assert Customs(todo) == rest;
    }
  }

  /** The loop of `PlaceCustoms` as a tail recursion: `acc` placed so
      far, `todo` still to scan, `used` the next fresh id number. */
  function PlaceInto(acc: seq<WorldAnchor>, todo: seq<DeclaredAnchor>, r: Rect, penId: string, ids: nat -> string, used: nat): (seq<WorldAnchor>, nat)
    decreases |todo|
  {
    if todo == [] then (acc, used)
    else PlaceInto(acc + Adds(todo[0], r, penId, ids, used), todo[1..], r, penId, ids, used + Draws(todo[0]))
  }

  /** Concatenation is associative. */
  lemma AppendAssoc<T>(a: seq<T>, b: seq<T>, c: seq<T>)
    ensures (a + b) + c == a + (b + c)
  {
  }

  /** Scanning `todo` appends the placement of its customs to what was
      placed before. */
  lemma {:induction false} PlaceIntoAppends(acc: seq<WorldAnchor>, todo: seq<DeclaredAnchor>, r: Rect, penId: string, ids: nat -> string, used: nat)
    ensures PlaceInto(acc, todo, r, penId, ids, used).0 == acc + PlaceEach(Customs(todo), r, penId, ids, used)
    decreases |todo|
  {
    if todo != [] {
      var a := todo[0];
      var front := Adds(a, r, penId, ids, used);
      var later := PlaceEach(Customs(todo[1..]), r, penId, ids, used + Draws(a));
      assert PlaceInto(acc, todo, r, penId, ids, used).0 == (acc + front) + later by {
        PlaceIntoAppends(acc + front, todo[1..], r, penId, ids, used + Draws(a));
      }
      assert PlaceEach(Customs(todo), r, penId, ids, used) == front + later by {
        PlaceStep(todo, r, penId, ids, used);
      }
      AppendAssoc(acc, front, later);
    }
  }

  /** Scanning `todo` draws one fresh id per unnamed custom anchor. */
  lemma {:induction false} PlaceIntoDraws(acc: seq<WorldAnchor>, todo: seq<DeclaredAnchor>, r: Rect, penId: string, ids: nat -> string, used: nat)
    ensures PlaceInto(acc, todo, r, penId, ids, used).1 == used + Unnamed(Customs(todo), |Customs(todo)|)
    decreases |todo|
  {
    if todo != [] {
      var a := todo[0];
      PlaceIntoDraws(acc + Adds(a, r, penId, ids, used), todo[1..], r, penId, ids, used + Draws(a));
      PlaceStep(todo, r, penId, ids, used);
    }
  }

  /** Places every custom anchor of `declared`, in order, drawing a fresh id
      for each one that has none. */
  method PlaceCustoms(declared: seq<DeclaredAnchor>, r: Rect, penId: string, ids: nat -> string, next: nat)
    returns (placed: seq<WorldAnchor>, used: nat)
    ensures placed == PlaceEach(Customs(declared), r, penId, ids, next)
    ensures used == next + Unnamed(Customs(declared), |Customs(declared)|)
  {
    placed := [];
    used := next;
    var todo := declared;
    while todo != []
      invariant PlaceInto(placed, todo, r, penId, ids, used) == PlaceInto([], declared, r, penId, ids, next)
      decreases |todo|
    {
      var a := todo[0];
      placed := placed + Adds(a, r, penId, ids, used);
      used := used + Draws(a);
      todo := todo[1..];
    }
    PlaceIntoAppends([], declared, r, penId, ids, next);
    PlaceIntoDraws([], declared, r, penId, ids, next);
    assert [] + PlaceEach(Customs(declared), r, penId, ids, next) == PlaceEach(Customs(declared), r, penId, ids, next);
  }

  /** Computes the world anchors of `pen` and returns the pen with them in its
      sidecar, plus the next unused index of the id supply. Custom anchors,
      when any is declared, replace the four defaults. */
  method CalcWorldAnchors(pen: Pen, ids: nat -> string, next: nat) returns (out: Pen, used: nat)
    requires pen.calculative.worldRect.Some?
    ensures out == pen.(calculative := pen.calculative.(worldAnchors := out.calculative.worldAnchors))
    ensures forall a :: a in out.calculative.worldAnchors ==> a.penId == pen.id
    ensures Customs(pen.anchors) != [] ==>
      && PlacedAt(out.calculative.worldAnchors, Customs(pen.anchors), pen.calculative.worldRect.value, pen.id, ids, next)
      && used == next + Unnamed(Customs(pen.anchors), |Customs(pen.anchors)|)
    ensures Customs(pen.anchors) == [] ==>
      && used == next + 4
      && out.calculative.worldAnchors == DefaultAnchors(pen.calculative.worldRect.value, pen.id, ids, next)
  {
    var r := pen.calculative.worldRect.value;
    var cs := Customs(pen.anchors);
    var placed, drawn := PlaceCustoms(pen.anchors, r, pen.id, ids, next);
    if placed == [] {
      assert cs == [] by {
        PlaceEachPointwise(cs, r, pen.id, ids, next);
      }
      placed := DefaultAnchors(r, pen.id, ids, drawn);
      used := drawn + 4;
    } else {
      assert cs != [] && PlacedAt(placed, cs, r, pen.id, ids, next) by {
        PlaceEachPointwise(cs, r, pen.id, ids, next);
      }
      PlacedAtOwned(placed, cs, r, pen.id, ids, next);
      used := drawn;
    }
    out := pen.(calculative := pen.calculative.(worldAnchors := placed));
  }

  /** A custom anchor whose fractions lie in [0, 1] lands inside the
      rectangle when the rectangle's extent is non-negative. */
  lemma CustomAnchorInside(a: DeclaredAnchor, r: Rect, penId: string, freshId: string)
    requires 0.0 <= a.x <= 1.0 && 0.0 <= a.y <= 1.0
    requires r.width >= 0.0 && r.height >= 0.0 && Consistent(r)
    ensures var w := PlaceCustom(a, r, penId, freshId);
      r.x <= w.x <= r.ex && r.y <= w.y <= r.ey
  {
    var w := PlaceCustom(a, r, penId, freshId);
    assert r.x <= w.x <= r.ex by {
      WithinExtent(r.x, r.width, r.ex, a.x);
    }
    assert r.y <= w.y <= r.ey by {
      WithinExtent(r.y, r.height, r.ey, a.y);
    }
  }

  /** `origin + extent * f` lies between `origin` and `end`, the far edge. */
  lemma WithinExtent(origin: real, extent: real, end: real, f: real)
    requires 0.0 <= f <= 1.0 && extent >= 0.0 && end == origin + extent
    ensures origin <= origin + extent * f <= end
  {
    assert extent - extent * f == extent * (1.0 - f);
  }
}

=== FILE: arrows.dfy ===
/** The arrow shapes of the common diagram set: closed polygon outlines
    built from a pen's cached world rectangle. A path is reduced to its
    vertex list and whether it is closed. */
module Arrows {
  import opened JsValues
  import opened Geometry
  import opened Pens
  import opened Render

  datatype Path = Path(vertices: seq<Point>, closed: bool)

  /** The outline of an arrow pointing left, tip first. The vertex at the
      lower inner corner of the head is emitted twice in a row. */
  function LeftOutline(r: Rect): (v: seq<Point>)
    ensures |v| == 8
  {
    [ Point(r.x, r.y + r.height / 2.0),
      Point(r.x + r.height / 2.0, r.y),
      Point(r.x + r.height / 2.0, r.y + r.height / 3.0),
      Point(r.x + r.width, r.y + r.height / 3.0),
      Point(r.x + r.width, r.y + (r.height * 2.0) / 3.0),
      Point(r.x + r.height / 2.0, r.y + (r.height * 2.0) / 3.0),
      Point(r.x + r.height / 2.0, r.y + (r.height * 2.0) / 3.0),
      Point(r.x + r.height / 2.0, r.y + r.height) ]
  }

  /** The outline of an arrow pointing right, starting at the upper edge of
      the shaft's tail. */
  function RightOutline(r: Rect): (v: seq<Point>)
    ensures |v| == 7
  {
    [ Point(r.x, r.y + r.height / 3.0),
      Point(r.x + (r.width - r.height / 2.0), r.y + r.height / 3.0),
      Point(r.x + (r.width - r.height / 2.0), r.y),
      Point(r.x + r.width, r.y + r.height / 2.0),
      Point(r.x + (r.width - r.height / 2.0), r.y + r.height),
      Point(r.x + (r.width - r.height / 2.0), r.y + (r.height * 2.0) / 3.0),
      Point(r.x, r.y + (r.height * 2.0) / 3.0) ]
  }

  /** The outline of a double-headed arrow, left tip first. */
  function TwowayOutline(r: Rect): (v: seq<Point>)
    ensures |v| == 10
  {
    [ Point(r.x, r.y + r.height / 2.0),
      Point(r.x + r.height / 2.0, r.y),
      Point(r.x + r.height / 2.0, r.y + r.height / 3.0),
      Point(r.x + (r.width - r.height / 2.0), r.y + r.height / 3.0),
      Point(r.x + (r.width - r.height / 2.0), r.y),
      Point(r.x + r.width, r.y + r.height / 2.0),
      Point(r.x + (r.width - r.height / 2.0), r.y + r.height),
      Point(r.x + (r.width - r.height / 2.0), r.y + (r.height * 2.0) / 3.0),
      Point(r.x + r.height / 2.0, r.y + (r.height * 2.0) / 3.0),
      Point(r.x + r.height / 2.0, r.y + r.height) ]
  }

  /** The path of a builder: none while the pen has no cached world
      rectangle, otherwise the closed outline of that rectangle. */
  function Outlined(pen: Pen, outline: Rect -> seq<Point>): (p: Option<Path>)
    ensures p.Some? <==> pen.calculative.worldRect.Some?
    ensures p.Some? ==> p.value.closed && p.value.vertices == outline(pen.calculative.worldRect.value)
  {
    if pen.calculative.worldRect.None? then None
    else Some(Path(outline(pen.calculative.worldRect.value), true))
  }

  function LeftArrow(pen: Pen): (p: Option<Path>)
    ensures p.Some? <==> pen.calculative.worldRect.Some?
    ensures p.Some? ==> p.value.closed && |p.value.vertices| == 8
    ensures p.Some? ==> p.value.vertices == LeftOutline(pen.calculative.worldRect.value)
  {
    Outlined(pen, LeftOutline)
  }

  function RightArrow(pen: Pen): (p: Option<Path>)
    ensures p.Some? <==> pen.calculative.worldRect.Some?
    ensures p.Some? ==> p.value.closed && |p.value.vertices| == 7
    ensures p.Some? ==> p.value.vertices == RightOutline(pen.calculative.worldRect.value)
  {
    Outlined(pen, RightOutline)
  }

  function TwowayArrow(pen: Pen): (p: Option<Path>)
    ensures p.Some? <==> pen.calculative.worldRect.Some?
    ensures p.Some? ==> p.value.closed && |p.value.vertices| == 10
    ensures p.Some? ==> p.value.vertices == TwowayOutline(pen.calculative.worldRect.value)
  {
    Outlined(pen, TwowayOutline)
  }

  /** The builders read nothing of the pen but its cached world rectangle. */
  lemma ArrowsReadOnlyWorldRect(a: Pen, b: Pen)
    requires a.calculative.worldRect == b.calculative.worldRect
    ensures LeftArrow(a) == LeftArrow(b)
    ensures RightArrow(a) == RightArrow(b)
    ensures TwowayArrow(a) == TwowayArrow(b)
  {
  }

  /** The five horizontal lines every outline is drawn on: the top and
      bottom edges, the thirds and the middle of the rectangle. */
  predicate OnBandLine(r: Rect, p: Point)
  {
    || p.y == r.y
    || p.y == r.y + r.height / 3.0
    || p.y == r.y + r.height / 2.0
    || p.y == r.y + (r.height * 2.0) / 3.0
    || p.y == r.y + r.height
  }

  /** `p` lies in the rectangle spanned by `r`'s position and extent. */
  predicate Inside(r: Rect, p: Point)
  {
    r.x <= p.x <= r.x + r.width && r.y <= p.y <= r.y + r.height
  }

  /** The three outlines of `r`, one after another. */
  function AllVertices(r: Rect): seq<Point>
  {
    LeftOutline(r) + RightOutline(r) + TwowayOutline(r)
  }

  /** Every vertex of every outline lies on one of the five band lines. */
  lemma {:induction false} OutlinesOnBandLines(r: Rect)
    ensures forall p :: p in AllVertices(r) ==> OnBandLine(r, p)
  {
    var all := AllVertices(r);
    forall i | 0 <= i < |all|
      ensures OnBandLine(r, all[i])
    {
    }
  }

  /** The band lines lie between the top and the bottom edge when the
      height is not negative. */
  lemma BandLineWithinHeight(r: Rect, p: Point)
    requires r.height >= 0.0 && OnBandLine(r, p)
    ensures r.y <= p.y <= r.y + r.height
  {
  }

  /** When the height is at most twice the width, so that the heads fit,
      every vertex of every outline lies inside the rectangle. */
  lemma {:induction false} OutlinesInside(r: Rect)
    requires 0.0 <= r.height <= 2.0 * r.width
    ensures forall p :: p in AllVertices(r) ==> Inside(r, p)
  {
    var all := AllVertices(r);
    forall i | 0 <= i < |all|
      ensures Inside(r, all[i])
    {
      BandLineWithinHeight(r, all[i]) by {
        OutlinesOnBandLines(r);
      }
    }
  }

  /** The reflection across the vertical centre line of `r`. */
  function Mirror(r: Rect, p: Point): (q: Point)
    ensures q.y == p.y
    ensures (p.x + q.x) / 2.0 == r.x + r.width / 2.0
  {
    Point(2.0 * r.x + r.width - p.x, p.y)
  }

  /** The left outline with its repeated vertex dropped. */
  function LeftDistinct(r: Rect): (v: seq<Point>)
    ensures |v| == 7
  {
    LeftOutline(r)[..6] + LeftOutline(r)[7..]
  }

  /** The only repeat in the left outline: positions 5 and 6. */
  lemma LeftRepeatsOneVertex(r: Rect)
    ensures LeftOutline(r)[5] == LeftOutline(r)[6]
    ensures r.height != 0.0 && r.width != r.height / 2.0 ==>
      forall i :: 0 <= i < 7 && i != 5 ==> LeftOutline(r)[i] != LeftOutline(r)[i + 1]
  {
  }

  /** The left arrow is the right arrow reflected: once its repeated vertex
      is dropped, walking it forwards from the tip meets the reflected
      vertices of the right arrow walked backwards from its tip. */
  lemma {:induction false} LeftMirrorsRight(r: Rect)
    ensures forall i :: 0 <= i < 7 ==> LeftDistinct(r)[i] == Mirror(r, RightOutline(r)[(10 - i) % 7])
  {
    var d := LeftDistinct(r);
    var m := RightOutline(r);
    assert d[0] == Mirror(r, m[3]);
    assert d[1] == Mirror(r, m[2]);
    assert d[2] == Mirror(r, m[1]);
    assert d[3] == Mirror(r, m[0]);
    assert d[4] == Mirror(r, m[6]);
    assert d[5] == Mirror(r, m[5]);
    assert d[6] == Mirror(r, m[4]);
  }

  /** The double-headed arrow is its own reflection: vertex `i` reflects
      onto vertex `(15 - i) % 10`, which walks the outline backwards from the
      opposite tip. */
  lemma {:induction false} TwowaySymmetric(r: Rect)
    ensures forall i :: 0 <= i < 10 ==> Mirror(r, TwowayOutline(r)[i]) == TwowayOutline(r)[(15 - i) % 10]
  {
    var t := TwowayOutline(r);
    assert Mirror(r, t[0]) == t[5];
    assert Mirror(r, t[1]) == t[4];
    assert Mirror(r, t[2]) == t[3];
    assert Mirror(r, t[3]) == t[2];
    assert Mirror(r, t[4]) == t[1];
    assert Mirror(r, t[5]) == t[0];
    assert Mirror(r, t[6]) == t[9];
    assert Mirror(r, t[7]) == t[8];
    assert Mirror(r, t[8]) == t[7];
    assert Mirror(r, t[9]) == t[6];
  }

  /** The double-headed arrow joins the head of the left arrow to the head
      of the right arrow. */
  lemma {:induction false} TwowayJoinsHeads(r: Rect)
    ensures TwowayOutline(r)
      == LeftOutline(r)[..3] + RightOutline(r)[1..6] + [LeftOutline(r)[5], LeftOutline(r)[7]]
  {
    var l := LeftOutline(r);
    var m := RightOutline(r);
    var joined := l[..3] + m[1..6] + [l[5], l[7]];
    assert |joined| == 10;
    forall i | 0 <= i < 10
      ensures joined[i] == TwowayOutline(r)[i]
    {
    }
  }

  /** Where the tips are: the left arrow starts at its tip on the left edge,
      the right arrow points at the middle of the right edge, and the
      double-headed arrow has both. */
  lemma Tips(r: Rect)
    ensures LeftOutline(r)[0] == Point(r.x, r.y + r.height / 2.0)
    ensures RightOutline(r)[3] == Point(r.x + r.width, r.y + r.height / 2.0)
    ensures Point(r.x, r.y + r.height / 2.0) in TwowayOutline(r)
    ensures Point(r.x + r.width, r.y + r.height / 2.0) in TwowayOutline(r)
  {
    assert TwowayOutline(r)[0] == Point(r.x, r.y + r.height / 2.0);
    assert TwowayOutline(r)[5] == Point(r.x + r.width, r.y + r.height / 2.0);
  }

  /** The right arrow's head stands on the vertical line `h / 2` short of the
      right edge, and its shaft runs between the thirds from the left edge
      to that line. */
  lemma RightHeadBase(r: Rect)
    ensures forall i :: 1 <= i <= 5 && i != 3 ==> RightOutline(r)[i].x == r.x + (r.width - r.height / 2.0)
    ensures RightOutline(r)[0].x == r.x && RightOutline(r)[6].x == r.x
    ensures RightOutline(r)[0].y == RightOutline(r)[1].y == r.y + r.height / 3.0
    ensures RightOutline(r)[5].y == RightOutline(r)[6].y == r.y + (r.height * 2.0) / 3.0
  {
  }

  /** The left arrow's shaft runs between the thirds from the head's base
      line `h / 2` right of the left edge to the right edge. */
  lemma LeftShaft(r: Rect)
    ensures LeftOutline(r)[2].y == LeftOutline(r)[3].y == r.y + r.height / 3.0
    ensures LeftOutline(r)[4].y == LeftOutline(r)[5].y == r.y + (r.height * 2.0) / 3.0
    ensures LeftOutline(r)[3].x == LeftOutline(r)[4].x == r.x + r.width
    ensures LeftOutline(r)[2].x == LeftOutline(r)[5].x == r.x + r.height / 2.0
  {
  }

  /** A pen without a cached world rectangle gets no arrow path, and so
      draws nothing. */
  lemma UnresolvedArrowDrawsNothing(pen: Pen, opts: RenderOptions)
    requires pen.calculative.worldRect.None?
    ensures RenderPen(pen, LeftArrow(pen).Some?, opts) == []
    ensures RenderPen(pen, RightArrow(pen).Some?, opts) == []
    ensures RenderPen(pen, TwowayArrow(pen).Some?, opts) == []
  {
  }
}

=== FILE: geometry.dfy ===
/** World-space value types: points and rectangles with derived corner and
    centre fields. */
module Geometry {
  import opened JsValues

  datatype Point = Point(x: real, y: real)

  /** A world-space box. `ex`/`ey` are the bottom-right corner; `rotate` is an
      absolute angle in degrees. `center` is optional because some producers
      of rectangles leave it unset. */
  datatype Rect = Rect(
    x: real, y: real, width: real, height: real,
    ex: real, ey: real, rotate: real, center: Option<Point>)

  function Midpoint(x: real, y: real, width: real, height: real): Point
  {
    Point(x + width / 2.0, y + height / 2.0)
  }

  /** The derived fields agree with the position and the extent. */
  predicate Consistent(r: Rect)
  {
    && r.ex == r.x + r.width
    && r.ey == r.y + r.height
    && r.center == Some(Midpoint(r.x, r.y, r.width, r.height))
  }

  /** The rectangle with the given position, extent and angle, its derived
      fields filled in. */
  function MakeRect(x: real, y: real, width: real, height: real, rotate: real): (r: Rect)
    ensures Consistent(r)
    ensures r.x == x && r.y == y && r.width == width && r.height == height
    ensures r.rotate == rotate
  {
    Rect(x, y, width, height, x + width, y + height, rotate, Some(Midpoint(x, y, width, height)))
  }
}

=== FILE: icon_rect.dfy ===
/** The icon sub-rectangle of a pen: a box placed inside the pen's world
    rectangle from the pen's `iconLeft/iconTop/iconWidth/iconHeight`, turned by
    the pen's `iconRotate` plus the parent's resolved angle. */
module IconRect {
  import opened JsValues
  import opened Geometry
  import opened Pens

  /** A nonzero value of magnitude below 1, read as a fraction of the pen's
      local extent. Unlike world-rectangle resolution, negative values of
      magnitude 1 or more are absolute here. */
  predicate Fractional(v: real)
  {
    v != 0.0 && Abs(v) < 1.0
  }

  /** An icon offset: `v || 0`, scaled by the pen's local `extent` when it is a
      fraction. */
  function Offset(v: Option<real>, extent: real): (o: real)
    ensures !Truthy(v) ==> o == 0.0
    ensures Truthy(v) && !Fractional(v.value) ==> o == v.value
    ensures Truthy(v) && Fractional(v.value) ==> o == extent * v.value
  {
    var o := OrNum(v, 0.0);
    if Fractional(o) then extent * v.value else o
  }

  /** The icon extent can be computed without NaN: when `v` is unset and the
      pen's own extent (the fallback) is a fraction, the source multiplies the
      extent by `v` itself, which must then at least be present. */
  predicate ExtentDefined(v: Option<real>, extent: real)
  {
    Truthy(v) || !Fractional(extent) || v.Some?
  }

  /** An icon extent: `v || extent`, scaled by `extent` when the value picked
      is a fraction. */
  function Extent(v: Option<real>, extent: real): (e: real)
    requires ExtentDefined(v, extent)
    ensures Truthy(v) && !Fractional(v.value) ==> e == v.value
    ensures Truthy(v) && Fractional(v.value) ==> e == extent * v.value
    ensures !Truthy(v) && !Fractional(extent) ==> e == extent
    ensures !Truthy(v) && Fractional(extent) ==> e == 0.0
  {
    var e := OrNum(v, extent);
    if Fractional(e) then extent * v.value else e
  }

  /** The icon's angle: `iconRotate`, plus the parent's resolved angle taken
      modulo 360 (sign of the sum kept) when the parent entry has one. */
  function IconRotation(pens: Table, pen: Pen): (rot: real)
    requires pen.parentId in pens
    ensures pens[pen.parentId].calculative.worldRect.None? ==> rot == pen.iconStyle.iconRotate
    ensures pens[pen.parentId].calculative.worldRect.Some? ==>
      var sum := pen.iconStyle.iconRotate + pens[pen.parentId].calculative.worldRect.value.rotate;
      && -360.0 < rot < 360.0
      && (sum >= 0.0 ==> rot >= 0.0) && (sum < 0.0 ==> rot <= 0.0)
      && sum - rot == Trunc(sum / 360.0) as real * 360.0
  {
    var parent := pens[pen.parentId].calculative.worldRect;
    if parent.Some? then Rem360(pen.iconStyle.iconRotate + parent.value.rotate)
    else pen.iconStyle.iconRotate
  }

  /** Inputs on which the icon rectangle is free of NaN. */
  predicate IconDefined(pen: Pen)
  {
    && ExtentDefined(pen.iconStyle.iconWidth, pen.width)
    && ExtentDefined(pen.iconStyle.iconHeight, pen.height)
  }

  /** Inputs on which the icon rectangle as written is free of NaN: besides
      `IconDefined`, a fractional `iconTop` needs `iconLeft` present, since it
      is `iconLeft` that gets multiplied. */
  predicate AsWrittenDefined(pen: Pen)
  {
    && IconDefined(pen)
    && (Fractional(OrNum(pen.iconStyle.iconTop, 0.0)) ==> pen.iconStyle.iconLeft.Some?)
  }

  /** The y offset as written: a fractional `iconTop` is replaced by the pen's
      height times `iconLeft`. */
  function TopOffsetAsWritten(pen: Pen): (y: real)
    requires AsWrittenDefined(pen)
    ensures !Fractional(OrNum(pen.iconStyle.iconTop, 0.0)) ==> y == Offset(pen.iconStyle.iconTop, pen.height)
    ensures Fractional(OrNum(pen.iconStyle.iconTop, 0.0)) ==> y == pen.height * pen.iconStyle.iconLeft.value
  {
    var y := OrNum(pen.iconStyle.iconTop, 0.0);
    if Fractional(y) then pen.height * pen.iconStyle.iconLeft.value else y
  }

  /** The icon rectangle exactly as the source builds it: the fractional
      `iconTop` reads `iconLeft`, and the record carries no centre. */
  function IconRectAsWritten(pens: Table, pen: Pen): (r: Rect)
    requires pen.parentId in pens && pen.calculative.worldRect.Some? && AsWrittenDefined(pen)
    ensures r.center.None? && !Consistent(r)
    ensures r.ex == r.x + r.width && r.ey == r.y + r.height
    ensures r.y == pen.calculative.worldRect.value.y + TopOffsetAsWritten(pen)
  {
    var world := pen.calculative.worldRect.value;
    var x := Offset(pen.iconStyle.iconLeft, pen.width);
    var y := TopOffsetAsWritten(pen);
    var width := Extent(pen.iconStyle.iconWidth, pen.width);
    var height := Extent(pen.iconStyle.iconHeight, pen.height);
    Rect(world.x + x, world.y + y, width, height,
         world.x + x + width, world.y + y + height, IconRotation(pens, pen), None)
  }

  /** The icon rectangle with the y offset read from `iconTop` and the centre
      filled in. */
  function IconRectOf(pens: Table, pen: Pen): (r: Rect)
    requires pen.parentId in pens && pen.calculative.worldRect.Some? && IconDefined(pen)
    ensures Consistent(r)
    ensures r.x == pen.calculative.worldRect.value.x + Offset(pen.iconStyle.iconLeft, pen.width)
    ensures r.y == pen.calculative.worldRect.value.y + Offset(pen.iconStyle.iconTop, pen.height)
    ensures r.width == Extent(pen.iconStyle.iconWidth, pen.width)
    ensures r.height == Extent(pen.iconStyle.iconHeight, pen.height)
    ensures r.rotate == IconRotation(pens, pen)
  {
    var world := pen.calculative.worldRect.value;
    MakeRect(world.x + Offset(pen.iconStyle.iconLeft, pen.width),
             world.y + Offset(pen.iconStyle.iconTop, pen.height),
             Extent(pen.iconStyle.iconWidth, pen.width),
             Extent(pen.iconStyle.iconHeight, pen.height),
             IconRotation(pens, pen))
  }

  /** Caches the icon rectangle in the pen's sidecar. */
  function CalcIconRect(pens: Table, pen: Pen): (out: Pen)
    requires pen.parentId in pens && pen.calculative.worldRect.Some? && IconDefined(pen)
    ensures out == pen.(calculative := pen.calculative.(worldIconRect := out.calculative.worldIconRect))
    ensures out.calculative.worldIconRect.Some? && Consistent(out.calculative.worldIconRect.value)
    ensures var world, r := pen.calculative.worldRect.value, out.calculative.worldIconRect.value;
      && r.x == world.x + Offset(pen.iconStyle.iconLeft, pen.width)
      && r.y == world.y + Offset(pen.iconStyle.iconTop, pen.height)
      && r.width == Extent(pen.iconStyle.iconWidth, pen.width)
      && r.height == Extent(pen.iconStyle.iconHeight, pen.height)
    ensures out.calculative.worldIconRect.value.rotate == IconRotation(pens, pen)
  {
    pen.(calculative := pen.calculative.(worldIconRect := Some(IconRectOf(pens, pen))))
  }

  /** The source's rectangle and the corrected one differ only in the y
      offset (when `iconTop` is a fraction) and in the missing centre. */
  lemma AsWrittenDiffersInTopAndCenter(pens: Table, pen: Pen)
    requires pen.parentId in pens && pen.calculative.worldRect.Some? && AsWrittenDefined(pen)
    ensures var fixed := IconRectOf(pens, pen);
      var y := pen.calculative.worldRect.value.y + TopOffsetAsWritten(pen);
      IconRectAsWritten(pens, pen) == fixed.(y := y, ey := y + fixed.height, center := None)
    ensures !Fractional(OrNum(pen.iconStyle.iconTop, 0.0)) ==>
      IconRectAsWritten(pens, pen) == IconRectOf(pens, pen).(center := None)
  {
  }

  /** Whenever `iconTop` is a fraction, `iconLeft` differs from it and the pen
      has a nonzero height, the rectangle as written sits at the wrong height:
      the offset is `height * iconLeft` instead of `height * iconTop`. */
  lemma TopFractionReadsLeft(pens: Table, pen: Pen)
    requires pen.parentId in pens && pen.calculative.worldRect.Some? && AsWrittenDefined(pen)
    requires Fractional(OrNum(pen.iconStyle.iconTop, 0.0))
    requires pen.iconStyle.iconLeft.value != pen.iconStyle.iconTop.value && pen.height != 0.0
    ensures IconRectAsWritten(pens, pen).y != IconRectOf(pens, pen).y
  {
    TopOffsetDiffers(pen);
  }

  /** The y offsets themselves differ. */
  lemma TopOffsetDiffers(pen: Pen)
    requires AsWrittenDefined(pen)
    requires Fractional(OrNum(pen.iconStyle.iconTop, 0.0))
    requires pen.iconStyle.iconLeft.value != pen.iconStyle.iconTop.value && pen.height != 0.0
    ensures TopOffsetAsWritten(pen) != Offset(pen.iconStyle.iconTop, pen.height)
  {
    OffsetOfFraction(pen.iconStyle.iconTop, pen.height);
    ScaledDiffer(pen.height, pen.iconStyle.iconLeft.value, pen.iconStyle.iconTop.value);
  }

  lemma OffsetOfFraction(v: Option<real>, e: real)
    requires Truthy(v) && Fractional(v.value)
    ensures Offset(v, e) == e * v.value
  {
  }

  lemma ExtentOfFraction(v: Option<real>, e: real)
    requires Truthy(v) && Fractional(v.value)
    ensures ExtentDefined(v, e) && Extent(v, e) == e * v.value
  {
  }

  lemma ScaledDiffer(h: real, a: real, b: real)
    requires h != 0.0 && a != b
    ensures h * a != h * b
  {
    assert h * a - h * b == h * (a - b);
  }

  /** The icon's angle comes from `iconRotate` and the parent alone: the pen's
      own `rotate` plays no part. */
  lemma IconIgnoresOwnRotate(pens: Table, pen: Pen, angle: real)
    requires pen.parentId in pens && pen.calculative.worldRect.Some? && IconDefined(pen)
    ensures IconRectOf(pens, pen.(rotate := angle)) == IconRectOf(pens, pen)
  {
  }

  /** An icon whose offsets and extents are fractions of a pen of
      non-negative size, and fit within it, lies inside the pen's world
      rectangle when that rectangle has the pen's own size. */
  lemma FractionalIconInside(pens: Table, pen: Pen)
    requires pen.parentId in pens && pen.calculative.worldRect.Some? && IconDefined(pen)
    requires Consistent(pen.calculative.worldRect.value)
    requires pen.calculative.worldRect.value.width == pen.width >= 0.0
    requires pen.calculative.worldRect.value.height == pen.height >= 0.0
    requires Truthy(pen.iconStyle.iconLeft) && 0.0 < pen.iconStyle.iconLeft.value < 1.0
    requires Truthy(pen.iconStyle.iconWidth) && 0.0 < pen.iconStyle.iconWidth.value < 1.0
    requires pen.iconStyle.iconLeft.value + pen.iconStyle.iconWidth.value <= 1.0
    ensures var r := IconRectOf(pens, pen);
      pen.calculative.worldRect.value.x <= r.x && r.ex <= pen.calculative.worldRect.value.ex
  {
    FractionsFit(pen);
  }

  /** The scaled offset and extent of such an icon fit in the pen's width. */
  lemma FractionsFit(pen: Pen)
    requires IconDefined(pen) && pen.width >= 0.0
    requires Truthy(pen.iconStyle.iconLeft) && 0.0 < pen.iconStyle.iconLeft.value < 1.0
    requires Truthy(pen.iconStyle.iconWidth) && 0.0 < pen.iconStyle.iconWidth.value < 1.0
    requires pen.iconStyle.iconLeft.value + pen.iconStyle.iconWidth.value <= 1.0
    ensures 0.0 <= Offset(pen.iconStyle.iconLeft, pen.width)
    ensures Offset(pen.iconStyle.iconLeft, pen.width) + Extent(pen.iconStyle.iconWidth, pen.width) <= pen.width
  {
    OffsetOfFraction(pen.iconStyle.iconLeft, pen.width);
    ExtentOfFraction(pen.iconStyle.iconWidth, pen.width);
    FitsWithin(pen.width, pen.iconStyle.iconLeft.value, pen.iconStyle.iconWidth.value);
  }

  /** Two fractions that add up to at most 1 scale into one extent. */
  lemma FitsWithin(e: real, l: real, w: real)
    requires e >= 0.0 && 0.0 < l && 0.0 < w && l + w <= 1.0
    ensures 0.0 <= e * l && e * l + e * w <= e
  {
    assert e * l + e * w == e * (l + w);
    assert e - e * (l + w) == e * (1.0 - (l + w));
  }
}

=== FILE: js_values.dfy ===
/** JavaScript value conventions the pen code relies on: optional values, the
    truthiness used by `||` and `if (v)`, and the truncating remainder `%`. */
module JsValues {

  /** An optional value; `None` stands for a JavaScript `undefined` field. */
  datatype Option<+T> = None | Some(value: T)

  /** `a || b` on strings: the empty string is falsy, so `b` is taken. */
  function OrStr(a: string, b: string): string
  {
    if a != "" then a else b
  }

  /** A number is truthy when it is present and not zero. */
  predicate Truthy(v: Option<real>)
  {
    v.Some? && v.value != 0.0
  }

  /** `v || d` on an optional number. */
  function OrNum(v: Option<real>, d: real): real
  {
    if Truthy(v) then v.value else d
  }

  function Abs(v: real): real
  {
    if v < 0.0 then -v else v
  }

  /** The integer part of `v`, rounded toward zero. */
  function Trunc(v: real): (t: int)
    ensures v >= 0.0 ==> t as real <= v < t as real + 1.0
    ensures v < 0.0 ==> t as real - 1.0 < v <= t as real
  {
    if v >= 0.0 then v.Floor else -((-v).Floor)
  }

  /** JavaScript's `a % 360` on degrees: the quotient is truncated toward
      zero, so the remainder carries the sign of the dividend (unlike Dafny's
      Euclidean `%`). */
  function Rem360(a: real): (r: real)
    ensures -360.0 < r < 360.0
    ensures a >= 0.0 ==> r >= 0.0
    ensures a < 0.0 ==> r <= 0.0
    ensures a - r == Trunc(a / 360.0) as real * 360.0
    ensures -360.0 < a < 360.0 ==> r == a
  {
    a - Trunc(a / 360.0) as real * 360.0
  }
}

=== FILE: pens.dfy ===
/** The pen record, its cached ("calculative") sidecar, the entity table and
    the walk to a pen's root ancestor. */
module Pens {
  import opened JsValues
  import opened Geometry

  datatype PenType = Node | Line

  /** An anchor as the user declared it: `x`/`y` are fractions of the pen's
      rectangle; only anchors flagged `custom` are placed. */
  datatype DeclaredAnchor = DeclaredAnchor(
    id: string, x: real, y: real, custom: bool, color: string, background: string)

  /** A placed connection point in world space, owned by pen `penId`. */
  datatype WorldAnchor = WorldAnchor(
    id: string, penId: string, x: real, y: real,
    color: string, background: string, custom: bool)

  /** Derived state, recomputed on each resolution pass. Loaded images are
      reduced to a flag and their natural size; `0.0` stands for an unknown
      natural size and for an unset `worldRotate`. */
  datatype Calculative = Calculative(
    worldRect: Option<Rect>,
    worldRotate: real,
    worldAnchors: seq<WorldAnchor>,
    worldIconRect: Option<Rect>,
    textDrawRect: Option<Rect>,
    textLines: seq<string>,
    imgLoaded: bool,
    imgNaturalWidth: real,
    imgNaturalHeight: real,
    strokeImgLoaded: bool,
    backgroundImgLoaded: bool,
    active: bool,
    hover: bool)

  /** The calculative sidecar of a pen that has not been resolved yet. */
  const EmptyCalculative := Calculative(None, 0.0, [], None, None, [], false, 0.0, 0.0, false, false, false, false)

  /** Line and fill attributes of a pen. An empty string is an unset string
      attribute (it is falsy in the source); a numeric attribute whose absence
      the source cannot tell from zero is a `real` with `0.0` for "unset". */
  datatype Style = Style(
    lineWidth: real,
    globalAlpha: Option<real>,
    lineDash: Option<seq<real>>,
    lineDashOffset: real,
    color: string,
    background: string,
    hoverColor: string,
    hoverBackground: string,
    activeColor: string,
    activeBackground: string,
    lineCap: string,
    shadowColor: string,
    shadowBlur: real,
    shadowOffsetX: real,
    shadowOffsetY: real,
    backgroundImage: string,
    strokeImage: string)

  /** Text attributes of a pen. `fontSize` and `lineHeight` are always set
      here; an unset one (NaN in the source) reads as 0. */
  datatype TextStyle = TextStyle(
    text: string,
    textColor: string,
    fontFamily: string,
    fontSize: real,
    lineHeight: real,
    fontStyle: string,
    fontWeight: string,
    textAlign: string,
    textBaseline: string,
    textBackground: string)

  /** Icon attributes of a pen: a bitmap `image` or a font glyph `icon`. The
      offsets and sizes are optional because the source distinguishes an
      unset one (`undefined`) from zero. */
  datatype IconStyle = IconStyle(
    image: string,
    icon: string,
    iconRotate: real,
    iconWidth: Option<real>,
    iconHeight: Option<real>,
    iconTop: Option<real>,
    iconLeft: Option<real>,
    iconColor: string,
    iconFamily: string,
    iconSize: real)

  /** A pen: identity, local geometry, styling, declared anchors and the
      calculative sidecar. `parentId == ""` marks a root pen. The width,
      height and rotation are always set here; an unset one (which the
      source turns into NaN) reads as 0. */
  datatype Pen = Pen(
    id: string,
    parentId: string,
    penType: PenType,
    x: real, y: real, width: real, height: real, rotate: real,
    center: Option<Point>,
    style: Style,
    textStyle: TextStyle,
    iconStyle: IconStyle,
    anchors: seq<DeclaredAnchor>,
    calculative: Calculative)

  /** The entity table: the only way to reach a pen's parent. */
  type Table = map<string, Pen>

  predicate IsRoot(pen: Pen)
  {
    pen.parentId == ""
  }

  /** Following `parentId` from `pen` reaches a root within `n` steps, every
      parent along the way being present in the table. */
  ghost predicate ReachesRoot(pens: Table, pen: Pen, n: nat)
    decreases n
  {
    IsRoot(pen) || (n > 0 && pen.parentId in pens && ReachesRoot(pens, pens[pen.parentId], n - 1))
  }

  /** The root ancestor of `pen` (the pen itself when it is a root). */
  function GetParent(pens: Table, pen: Pen, ghost n: nat): (root: Pen)
    requires ReachesRoot(pens, pen, n)
    ensures IsRoot(root)
    ensures IsRoot(pen) ==> root == pen
    ensures !IsRoot(pen) ==> root in pens.Values
    decreases n
  {
    if IsRoot(pen) then pen else GetParent(pens, pens[pen.parentId], n - 1)
  }

  /** A longer walk budget than needed still reaches a root. */
  lemma {:induction false} ReachesRootMonotone(pens: Table, pen: Pen, n: nat, m: nat)
    requires ReachesRoot(pens, pen, n) && n <= m
    ensures ReachesRoot(pens, pen, m)
    decreases n
  {
    if !IsRoot(pen) {
      ReachesRootMonotone(pens, pens[pen.parentId], n - 1, m - 1);
    }
  }

  /** The root found does not depend on the walk budget. */
  lemma {:induction false} GetParentDeterministic(pens: Table, pen: Pen, n: nat, m: nat)
    requires ReachesRoot(pens, pen, n) && ReachesRoot(pens, pen, m)
    ensures GetParent(pens, pen, n) == GetParent(pens, pen, m)
    decreases n
  {
    if !IsRoot(pen) {
      GetParentDeterministic(pens, pens[pen.parentId], n - 1, m - 1);
    }
  }

  /** A child shares its root with its parent. */
  lemma {:induction false} GetParentOfChild(pens: Table, pen: Pen, n: nat, m: nat)
    requires ReachesRoot(pens, pen, n) && !IsRoot(pen)
    requires pen.parentId in pens && ReachesRoot(pens, pens[pen.parentId], m)
    ensures GetParent(pens, pen, n) == GetParent(pens, pens[pen.parentId], m)
  {
    GetParentDeterministic(pens, pens[pen.parentId], n - 1, m);
  }
}

=== FILE: render.dfy ===
/** Pen rendering as a trace: the calls the renderer makes on a 2D drawing
    context, in order. The context itself, the path value, loaded images and
    the CSS font strings are abstract; angles are recorded in degrees. */
module Render {
  import opened JsValues
  import opened Geometry
  import opened Pens

  /** Which loaded image a pattern repeats. */
  datatype ImageSlot = StrokeImage | BackgroundImage

  /** A stroke or fill style: a CSS colour or a repeating image pattern. */
  datatype Paint = Color(css: string) | Pattern(image: ImageSlot)

  /** A font descriptor standing for the CSS font string the source builds. */
  datatype Font =
    | IconFont(px: real, family: string)
    | TextFont(style: string, weight: string, px: real, lineHeight: real, family: string)

  /** One call on the drawing context. */
  datatype DrawCall =
    | Save
    | Restore
    | BeginPath
    | Translate(dx: real, dy: real)
    | Rotate(degrees: real)
    | SetLineWidth(width: real)
    | SetStrokeStyle(stroke: Paint)
    | SetFillStyle(fill: Paint)
    | SetLineCap(cap: string)
    | SetGlobalAlpha(alpha: real)
    | SetLineDash(dash: seq<real>)
    | SetLineDashOffset(offset: real)
    | SetShadowColor(color: string)
    | SetShadowOffsetX(offsetX: real)
    | SetShadowOffsetY(offsetY: real)
    | SetShadowBlur(blur: real)
    | FillPath
    | StrokePath
    | DrawImage(x: real, y: real, width: real, height: real)
    | SetFont(font: Font)
    | SetTextAlign(align: string)
    | SetTextBaseline(baseline: string)
    | FillText(text: string, x: real, y: real)
    | FillRect(x: real, y: real, width: real, height: real)

  /** Editor-wide fallbacks for a pen's own state colours. */
  datatype RenderOptions = RenderOptions(
    hoverColor: string, hoverBackground: string,
    activeColor: string, activeBackground: string,
    textColor: string)

  datatype StyleState = Hover | Active | Normal

  /** Hover takes precedence over active, active over the normal state. */
  function StateOf(pen: Pen): (st: StyleState)
    ensures st == Hover <==> pen.calculative.hover
    ensures st == Active <==> !pen.calculative.hover && pen.calculative.active
  {
    if pen.calculative.hover then Hover
    else if pen.calculative.active then Active
    else Normal
  }

  /** A rotation by `degrees` pivoting on `c`: move the origin to `c`, rotate,
      move it back. */
  function RotateAbout(c: Point, degrees: real): (calls: seq<DrawCall>)
    ensures |calls| == 3 && calls[1] == Rotate(degrees)
    ensures calls[0].Translate? && calls[2].Translate?
    ensures calls[0].dx + calls[2].dx == 0.0 && calls[0].dy + calls[2].dy == 0.0
    ensures calls[0] == Translate(c.x, c.y) && calls[2] == Translate(-c.x, -c.y)
  {
    [Translate(c.x, c.y), Rotate(degrees), Translate(-c.x, -c.y)]
  }

  /** A rotation about `c`, or nothing when the angle is 0. */
  function TurnAbout(c: Option<Point>, degrees: real): seq<DrawCall>
    requires degrees != 0.0 ==> c.Some?
  {
    if degrees != 0.0 then RotateAbout(c.value, degrees) else []
  }

  /** `inner` between a save and the restore matching it. */
  function Bracket(inner: seq<DrawCall>): seq<DrawCall>
  {
    [Save] + inner + [Restore]
  }

  // ---------------------------------------------------------------------
  // Setup: everything before the path is painted.

  function WorldRotation(pen: Pen): seq<DrawCall>
    requires pen.calculative.worldRotate != 0.0 ==> pen.center.Some?
  {
    TurnAbout(pen.center, pen.calculative.worldRotate)
  }

  function LineWidthCalls(pen: Pen): seq<DrawCall>
  {
    if pen.style.lineWidth > 1.0 then [SetLineWidth(pen.style.lineWidth)] else []
  }

  /** The stroke style of the normal state, and whether it forces a fill. */
  function NormalStroke(pen: Pen): (seq<DrawCall>, bool)
  {
    if pen.style.strokeImage != "" then
      if pen.calculative.strokeImgLoaded then ([SetStrokeStyle(Pattern(StrokeImage))], true)
      else ([], false)
    else ([SetStrokeStyle(Color(pen.style.color))], false)
  }

  /** The stroke and fill styles set for the pen's state, and whether the
      path gets filled. In the normal state, a pen without a background image
      takes its fill decision from `background` alone, overriding what the
      stroke image decided. */
  function StyleCalls(pen: Pen, opts: RenderOptions): (seq<DrawCall>, bool)
  {
    var s := pen.style;
    match StateOf(pen)
    case Hover =>
      var bg := OrStr(s.hoverBackground, opts.hoverBackground);
      ([SetStrokeStyle(Color(OrStr(s.hoverColor, opts.hoverColor))), SetFillStyle(Color(bg))], bg != "")
    case Active =>
      var bg := OrStr(s.activeBackground, opts.activeBackground);
      ([SetStrokeStyle(Color(OrStr(s.activeColor, opts.activeColor))), SetFillStyle(Color(bg))], bg != "")
    case Normal =>
      var stroke := NormalStroke(pen);
      if s.backgroundImage != "" then
        if pen.calculative.backgroundImgLoaded then (stroke.0 + [SetFillStyle(Pattern(BackgroundImage))], true)
        else stroke
      else (stroke.0 + [SetFillStyle(Color(s.background))], s.background != "")
  }

  function LineCapCalls(pen: Pen): seq<DrawCall>
  {
    if pen.style.lineCap != "" then [SetLineCap(pen.style.lineCap)]
    else if pen.penType == Line then [SetLineCap("round")]
    else []
  }

  /** An unset alpha is left alone: `undefined < 1` is false. */
  function AlphaCalls(pen: Pen): seq<DrawCall>
  {
    if pen.style.globalAlpha.Some? && pen.style.globalAlpha.value < 1.0 then
      [SetGlobalAlpha(pen.style.globalAlpha.value)]
    else []
  }

  /** A dash pattern is applied whenever one is present, even an empty one. */
  function DashCalls(pen: Pen): seq<DrawCall>
  {
    (if pen.style.lineDash.Some? then [SetLineDash(pen.style.lineDash.value)] else [])
      + (if pen.style.lineDashOffset != 0.0 then [SetLineDashOffset(pen.style.lineDashOffset)] else [])
  }

  function ShadowCalls(pen: Pen): seq<DrawCall>
  {
    if pen.style.shadowColor != "" then
      [SetShadowColor(pen.style.shadowColor), SetShadowOffsetX(pen.style.shadowOffsetX),
       SetShadowOffsetY(pen.style.shadowOffsetY), SetShadowBlur(pen.style.shadowBlur)]
    else []
  }

  function Setup(pen: Pen, opts: RenderOptions): seq<DrawCall>
    requires pen.calculative.worldRotate != 0.0 ==> pen.center.Some?
  {
    WorldRotation(pen) + LineWidthCalls(pen) + StyleCalls(pen, opts).0 + LineCapCalls(pen)
      + AlphaCalls(pen) + DashCalls(pen) + ShadowCalls(pen)
  }

  /** Fill (when a fill was decided) and then the unconditional stroke. */
  function PaintCalls(fill: bool): seq<DrawCall>
  {
    (if fill then [FillPath] else []) + [StrokePath]
  }

  // ---------------------------------------------------------------------
  // Icon: a bitmap image, or else a font glyph.

  /** Where the image is drawn. */
  datatype Box = Box(x: real, y: real, width: real, height: real)

  /** The image box inside the icon rectangle: an explicit `iconWidth` or
      `iconHeight` replaces the rectangle's extent, the natural aspect ratio
      (when both natural sizes are known) fixes the other extent, and the box
      is centred on the rectangle. */
  function ImageBox(rect: Rect, iconWidth: Option<real>, iconHeight: Option<real>,
                    naturalWidth: real, naturalHeight: real): (b: Box)
    ensures b.x + b.width / 2.0 == rect.x + rect.width / 2.0
    ensures b.y + b.height / 2.0 == rect.y + rect.height / 2.0
    ensures b.width == (if naturalWidth != 0.0 && naturalHeight != 0.0 && !Truthy(iconWidth)
                        then naturalWidth / naturalHeight * b.height else OrNum(iconWidth, rect.width))
    ensures b.height == (if naturalWidth != 0.0 && naturalHeight != 0.0 && Truthy(iconWidth)
                         then naturalHeight / naturalWidth * b.width else OrNum(iconHeight, rect.height))
  {
    var known := naturalWidth != 0.0 && naturalHeight != 0.0;
    var w0 := OrNum(iconWidth, rect.width);
    var h0 := OrNum(iconHeight, rect.height);
    var w := if known && !Truthy(iconWidth) then naturalWidth / naturalHeight * h0 else w0;
    var h := if known && Truthy(iconWidth) then naturalHeight / naturalWidth * w0 else h0;
    Box(rect.x + (rect.width - w) / 2.0, rect.y + (rect.height - h) / 2.0, w, h)
  }

  /** The glyph's font size: `iconSize` when positive, else the smaller side
      of the icon rectangle. */
  function GlyphSize(iconSize: real, rect: Rect): (px: real)
    ensures iconSize > 0.0 ==> px == iconSize
    ensures iconSize <= 0.0 ==> px <= rect.width && px <= rect.height
    ensures iconSize <= 0.0 ==> px == rect.width || px == rect.height
  {
    if iconSize > 0.0 then iconSize
    else if rect.width > rect.height then rect.height
    else rect.width
  }

  /** The bitmap branch applies: an image is configured and loaded. */
  predicate DrawsImage(pen: Pen)
  {
    pen.iconStyle.image != "" && pen.calculative.imgLoaded
  }

  /** The glyph branch applies. */
  predicate DrawsGlyph(pen: Pen)
  {
    !DrawsImage(pen) && pen.iconStyle.icon != ""
  }

  /** What the icon branch reads: the icon rectangle, its centre when it
      rotates about it, and for a glyph the pen's world rectangle. */
  predicate IconReady(pen: Pen)
  {
    var icon := pen.calculative.worldIconRect;
    && (DrawsImage(pen) ==>
          icon.Some? && (pen.iconStyle.iconRotate != 0.0 ==> icon.value.center.Some?))
    && (DrawsGlyph(pen) ==>
          && icon.Some? && pen.calculative.worldRect.Some?
          && (pen.calculative.worldRect.value.rotate != 0.0 ==> icon.value.center.Some?))
  }

  /** An icon is drawn without a shadow. */
  const NoShadow: seq<DrawCall> := [SetShadowColor(""), SetShadowBlur(0.0)]

  /** The bitmap is rotated by the pen's own `iconRotate`. */
  function ImageInner(pen: Pen): seq<DrawCall>
    requires DrawsImage(pen) && IconReady(pen)
  {
    var rect := pen.calculative.worldIconRect.value;
    var b := ImageBox(rect, pen.iconStyle.iconWidth, pen.iconStyle.iconHeight,
                      pen.calculative.imgNaturalWidth, pen.calculative.imgNaturalHeight);
    NoShadow + TurnAbout(rect.center, pen.iconStyle.iconRotate) + [DrawImage(b.x, b.y, b.width, b.height)]
  }

  /** The glyph's state: no shadow, centred text, the icon font and colour. */
  function GlyphHead(size: real, family: string, color: string): seq<DrawCall>
  {
    NoShadow + [SetTextAlign("center"), SetTextBaseline("middle"), SetFont(IconFont(size, family)),
                SetFillStyle(Color(color))]
  }

  /** The glyph is rotated by the pen's world rectangle's angle, not by
      `iconRotate`. */
  function GlyphInner(pen: Pen, opts: RenderOptions): seq<DrawCall>
    requires DrawsGlyph(pen) && IconReady(pen)
  {
    var rect := pen.calculative.worldIconRect.value;
    var angle := pen.calculative.worldRect.value.rotate;
    GlyphHead(GlyphSize(pen.iconStyle.iconSize, rect), pen.iconStyle.iconFamily,
              OrStr(pen.iconStyle.iconColor, OrStr(pen.textStyle.textColor, opts.textColor)))
      + TurnAbout(rect.center, angle)
      + [BeginPath, FillText(pen.iconStyle.icon, rect.x + rect.width / 2.0, rect.y + rect.height / 2.0)]
  }

  function IconCalls(pen: Pen, opts: RenderOptions): seq<DrawCall>
    requires IconReady(pen)
  {
    if DrawsImage(pen) then Bracket(ImageInner(pen))
    else if DrawsGlyph(pen) then Bracket(GlyphInner(pen, opts))
    else []
  }

  // ---------------------------------------------------------------------
  // Text: pre-wrapped lines in the text draw rectangle.

  /** The baseline's share of a line: `top` 0, `bottom` 1, anything else 0.5. */
  function BaselineShift(baseline: string): (k: real)
    ensures k == 0.0 || k == 0.5 || k == 1.0
    ensures k == 0.0 <==> baseline == "top"
    ensures k == 1.0 <==> baseline == "bottom"
  {
    if baseline == "top" then 0.0
    else if baseline == "bottom" then 1.0
    else 0.5
  }

  /** One `fillText` per line, the i-th line `(i + shift)` line-heights below
      `top`. */
  function TextLineCalls(lines: seq<string>, x: real, top: real, shift: real,
                         fontSize: real, lineHeight: real): (calls: seq<DrawCall>)
    ensures |calls| == |lines|
    ensures forall i :: 0 <= i < |lines| ==>
      && calls[i].FillText? && calls[i].text == lines[i] && calls[i].x == x
      && calls[i].y == top + (i as real + shift) * fontSize * lineHeight
  {
    seq(|lines|, i requires 0 <= i < |lines| => FillText(lines[i], x, top + (i as real + shift) * fontSize * lineHeight))
  }

  /** The text background box, moved left by its width for right-aligned
      text. */
  function TextBackground(pen: Pen): seq<DrawCall>
    requires pen.calculative.textDrawRect.Some?
  {
    var tr := pen.calculative.textDrawRect.value;
    var ts := pen.textStyle;
    if ts.textBackground != "" then
      Bracket([SetFillStyle(Color(ts.textBackground)),
               FillRect(tr.x - (if ts.textAlign == "right" then tr.width else 0.0), tr.y, tr.width, tr.height)])
    else []
  }

  /** The font (with its defaults) and the alignment, `center` by default. */
  function TextFontCalls(ts: TextStyle): seq<DrawCall>
  {
    [SetFont(TextFont(OrStr(ts.fontStyle, "normal"), OrStr(ts.fontWeight, "normal"),
                      ts.fontSize, ts.lineHeight, ts.fontFamily)),
     SetTextAlign(OrStr(ts.textAlign, "center"))]
  }

  /** A baseline is set only when the pen names one. */
  function BaselineCalls(ts: TextStyle): seq<DrawCall>
  {
    if ts.textBaseline != "" then [SetTextBaseline(ts.textBaseline)] else []
  }

  /** The lines, centred horizontally when no alignment is given. */
  function TextLines(pen: Pen): seq<DrawCall>
    requires pen.calculative.textDrawRect.Some?
  {
    var tr := pen.calculative.textDrawRect.value;
    var ts := pen.textStyle;
    TextLineCalls(pen.calculative.textLines,
                  tr.x + (if ts.textAlign == "" then tr.width / 2.0 else 0.0), tr.y,
                  BaselineShift(ts.textBaseline), ts.fontSize, ts.lineHeight)
  }

  function TextInner(pen: Pen): seq<DrawCall>
    requires pen.calculative.textDrawRect.Some?
  {
    [SetFillStyle(Color(OrStr(pen.textStyle.textColor, pen.style.color)))]
      + TextBackground(pen) + TextFontCalls(pen.textStyle) + BaselineCalls(pen.textStyle) + TextLines(pen)
  }

  function TextCalls(pen: Pen): seq<DrawCall>
    requires pen.textStyle.text != "" ==> pen.calculative.textDrawRect.Some?
  {
    if pen.textStyle.text != "" then Bracket(TextInner(pen)) else []
  }

  // ---------------------------------------------------------------------
  // The whole pass.

  /** Every field the renderer dereferences is present: the pen's centre when
      it rotates, the icon rectangle (and its centre) when an icon is drawn,
      the text draw rectangle when there is text. */
  predicate RenderReady(pen: Pen)
  {
    && (pen.calculative.worldRotate != 0.0 ==> pen.center.Some?)
    && IconReady(pen)
    && (pen.textStyle.text != "" ==> pen.calculative.textDrawRect.Some?)
  }

  /** The calls between the outer save and restore. */
  function Body(pen: Pen, opts: RenderOptions): seq<DrawCall>
    requires RenderReady(pen)
  {
    [BeginPath] + Setup(pen, opts) + PaintCalls(StyleCalls(pen, opts).1) + IconCalls(pen, opts) + TextCalls(pen)
  }

  /** The calls the renderer makes for `pen`; nothing at all without a path. */
  function RenderPen(pen: Pen, hasPath: bool, opts: RenderOptions): (trace: seq<DrawCall>)
    requires hasPath ==> RenderReady(pen)
    ensures !hasPath <==> trace == []
    ensures hasPath ==> |trace| >= 3 && trace[0] == Save && trace[1] == BeginPath && trace[|trace| - 1] == Restore
  {
    if hasPath then Bracket(Body(pen, opts)) else []
  }
}

=== FILE: render_facts.dfy ===
/** What the render trace guarantees: saves and restores balance, exactly one
    stroke with the fill right before it, state precedence, the guarded
    settings, and the geometry of icons and text lines. */
module RenderFacts {
  import opened JsValues
  import opened Geometry
  import opened Pens
  import opened Render
  import opened IconRect

  // ---------------------------------------------------------------------
  // Save/restore balance.

  /** The save depth after replaying `calls` from depth `d`; `None` when a
      restore finds no saved state to pop. */
  function Replay(calls: seq<DrawCall>, d: nat): Option<nat>
    decreases |calls|
  {
    if calls == [] then Some(d)
    else if calls[0] == Save then Replay(calls[1..], d + 1)
    else if calls[0] == Restore then (if d == 0 then None else Replay(calls[1..], d - 1))
    else Replay(calls[1..], d)
  }

  /** Every restore pops a save made earlier, and every save is popped. */
  predicate Balanced(calls: seq<DrawCall>)
  {
    Replay(calls, 0) == Some(0)
  }

  /** Replayed from any depth, `calls` ends at that depth without ever going
      below it. */
  ghost predicate Neutral(calls: seq<DrawCall>)
  {
    forall d: nat :: Replay(calls, d) == Some(d)
  }

  predicate Stateless(c: DrawCall)
  {
    !c.Save? && !c.Restore?
  }

  /** No call in `calls` touches the save stack. */
  predicate Flat(calls: seq<DrawCall>)
  {
    forall c :: c in calls ==> Stateless(c)
  }

  lemma {:induction false} ReplayConcat(a: seq<DrawCall>, b: seq<DrawCall>, d: nat)
    ensures Replay(a + b, d) == (match Replay(a, d) case None => None case Some(e) => Replay(b, e))
    decreases |a|
  {
    if a == [] {
      assert a + b == b;
    } else {
      assert (a + b)[0] == a[0];
      assert (a + b)[1..] == a[1..] + b;
      if a[0] == Save {
        ReplayConcat(a[1..], b, d + 1);
      } else if a[0] == Restore {
        if d > 0 {
          ReplayConcat(a[1..], b, d - 1);
        }
      } else {
        ReplayConcat(a[1..], b, d);
      }
    }
  }

  lemma {:induction false} FlatReplay(calls: seq<DrawCall>, d: nat)
    requires Flat(calls)
    ensures Replay(calls, d) == Some(d)
    decreases |calls|
  {
    if calls != [] {
      assert calls[0] in calls;
      assert Flat(calls[1..]) by {
        forall c | c in calls[1..]
          ensures Stateless(c)
        {
          assert c in calls;
        }
      }
      FlatReplay(calls[1..], d);
    }
  }

  lemma FlatNeutral(calls: seq<DrawCall>)
    requires Flat(calls)
    ensures Neutral(calls)
  {
    forall d: nat
      ensures Replay(calls, d) == Some(d)
    {
      FlatReplay(calls, d);
    }
  }

  lemma NeutralConcat(a: seq<DrawCall>, b: seq<DrawCall>)
    requires Neutral(a) && Neutral(b)
    ensures Neutral(a + b)
  {
    forall d: nat
      ensures Replay(a + b, d) == Some(d)
    {
      ReplayConcat(a, b, d);
    }
  }

  lemma BracketNeutral(inner: seq<DrawCall>)
    requires Neutral(inner)
    ensures Neutral(Bracket(inner))
  {
    forall d: nat
      ensures Replay(Bracket(inner), d) == Some(d)
    {
      ReplayConcat([Save] + inner, [Restore], d);
      ReplayConcat([Save], inner, d);
      assert Replay([Save], d) == Some(d + 1) by {
        assert [Save][1..] == [];
      }
      assert Replay([Restore], d + 1) == Some(d) by {
        assert [Restore][1..] == [];
      }
    }
  }

  // ---------------------------------------------------------------------
  // What each step of the pass can do.

  /** A call that fills or strokes the current path. */
  predicate Paints(c: DrawCall)
  {
    c.FillPath? || c.StrokePath?
  }

  /** A setting the pass makes only under a guard of its own: the line
      width, the line cap, the global alpha, the dash pattern and offset, and
      the shadow offsets. The shadow colour and blur are not among them: the
      icon step clears both. */
  predicate GuardedSetting(c: DrawCall)
  {
    || c.SetLineWidth? || c.SetLineCap? || c.SetGlobalAlpha?
    || c.SetLineDash? || c.SetLineDashOffset?
    || c.SetShadowOffsetX? || c.SetShadowOffsetY?
  }

  /** No call in `calls` paints the path or makes a guarded setting. */
  predicate Incidental(calls: seq<DrawCall>)
  {
    forall c :: c in calls ==> !Paints(c) && !GuardedSetting(c)
  }

  /** No call in `calls` touches the save stack or paints the path. */
  predicate Tame(calls: seq<DrawCall>)
  {
    forall c :: c in calls ==> Stateless(c) && !Paints(c)
  }

  lemma IncidentalConcat(a: seq<DrawCall>, b: seq<DrawCall>)
    requires Incidental(a) && Incidental(b)
    ensures Incidental(a + b)
  {
  }

  lemma TameConcat(a: seq<DrawCall>, b: seq<DrawCall>)
    requires Tame(a) && Tame(b)
    ensures Tame(a + b)
  {
  }

  lemma BracketIncidental(inner: seq<DrawCall>)
    requires Incidental(inner)
    ensures Incidental(Bracket(inner))
  {
    IncidentalConcat([Save], inner);
    IncidentalConcat([Save] + inner, [Restore]);
  }

  lemma TurnQuiet(c: Option<Point>, degrees: real)
    requires degrees != 0.0 ==> c.Some?
    ensures Flat(TurnAbout(c, degrees)) && Tame(TurnAbout(c, degrees)) && Incidental(TurnAbout(c, degrees))
  {
  }

  /** The setup steps one by one. */
  lemma SetupStepsTame(pen: Pen, opts: RenderOptions)
    requires pen.calculative.worldRotate != 0.0 ==> pen.center.Some?
    ensures Tame(WorldRotation(pen)) && Tame(LineWidthCalls(pen)) && Tame(StyleCalls(pen, opts).0)
    ensures Tame(LineCapCalls(pen)) && Tame(AlphaCalls(pen)) && Tame(DashCalls(pen)) && Tame(ShadowCalls(pen))
  {
    TurnQuiet(pen.center, pen.calculative.worldRotate);
  }

  /** The setup neither touches the save stack nor paints. */
  lemma SetupTame(pen: Pen, opts: RenderOptions)
    requires pen.calculative.worldRotate != 0.0 ==> pen.center.Some?
    ensures Tame([BeginPath] + Setup(pen, opts))
  {
    SetupStepsTame(pen, opts);
    var a := WorldRotation(pen) + LineWidthCalls(pen);
    TameConcat(WorldRotation(pen), LineWidthCalls(pen));
    var b := a + StyleCalls(pen, opts).0;
    TameConcat(a, StyleCalls(pen, opts).0);
    var c := b + LineCapCalls(pen);
    TameConcat(b, LineCapCalls(pen));
    var d := c + AlphaCalls(pen);
    TameConcat(c, AlphaCalls(pen));
    var e := d + DashCalls(pen);
    TameConcat(d, DashCalls(pen));
    TameConcat(e, ShadowCalls(pen));
    assert Tame([BeginPath]);
    TameConcat([BeginPath], Setup(pen, opts));
  }

  lemma SetupFlat(pen: Pen, opts: RenderOptions)
    requires pen.calculative.worldRotate != 0.0 ==> pen.center.Some?
    ensures Flat([BeginPath] + Setup(pen, opts))
  {
    SetupTame(pen, opts);
  }

  lemma ImageQuiet(pen: Pen)
    requires DrawsImage(pen) && IconReady(pen)
    ensures Flat(ImageInner(pen)) && Incidental(ImageInner(pen))
  {
    var rect := pen.calculative.worldIconRect.value;
    var b := ImageBox(rect, pen.iconStyle.iconWidth, pen.iconStyle.iconHeight,
                      pen.calculative.imgNaturalWidth, pen.calculative.imgNaturalHeight);
    var rot := TurnAbout(rect.center, pen.iconStyle.iconRotate);
    var tail := [DrawImage(b.x, b.y, b.width, b.height)];
    TurnQuiet(rect.center, pen.iconStyle.iconRotate);
    assert Flat(NoShadow) && Incidental(NoShadow);
    IncidentalConcat(NoShadow, rot);
    IncidentalConcat(NoShadow + rot, tail);
  }

  lemma GlyphHeadQuiet(size: real, family: string, color: string)
    ensures Flat(GlyphHead(size, family, color)) && Incidental(GlyphHead(size, family, color))
  {
  }

  lemma GlyphQuiet(pen: Pen, opts: RenderOptions)
    requires DrawsGlyph(pen) && IconReady(pen)
    ensures Flat(GlyphInner(pen, opts)) && Incidental(GlyphInner(pen, opts))
  {
    var rect := pen.calculative.worldIconRect.value;
    var angle := pen.calculative.worldRect.value.rotate;
    var color := OrStr(pen.iconStyle.iconColor, OrStr(pen.textStyle.textColor, opts.textColor));
    var head := GlyphHead(GlyphSize(pen.iconStyle.iconSize, rect), pen.iconStyle.iconFamily, color);
    var rot := TurnAbout(rect.center, angle);
    var tail := [BeginPath, FillText(pen.iconStyle.icon, rect.x + rect.width / 2.0, rect.y + rect.height / 2.0)];
    GlyphHeadQuiet(GlyphSize(pen.iconStyle.iconSize, rect), pen.iconStyle.iconFamily, color);
    TurnQuiet(rect.center, angle);
    IncidentalConcat(head, rot);
    IncidentalConcat(head + rot, tail);
  }

  /** The icon step neither paints the path nor makes a guarded setting. */
  lemma IconIncidental(pen: Pen, opts: RenderOptions)
    requires IconReady(pen)
    ensures Incidental(IconCalls(pen, opts))
  {
    if DrawsImage(pen) {
      ImageQuiet(pen);
      BracketIncidental(ImageInner(pen));
    } else if DrawsGlyph(pen) {
      GlyphQuiet(pen, opts);
      BracketIncidental(GlyphInner(pen, opts));
    }
  }

  lemma TextPartsQuiet(pen: Pen)
    requires pen.calculative.textDrawRect.Some?
    ensures Flat([SetFillStyle(Color(OrStr(pen.textStyle.textColor, pen.style.color)))])
    ensures Incidental(TextBackground(pen))
    ensures Flat(TextFontCalls(pen.textStyle)) && Incidental(TextFontCalls(pen.textStyle))
    ensures Flat(BaselineCalls(pen.textStyle)) && Incidental(BaselineCalls(pen.textStyle))
    ensures Flat(TextLines(pen)) && Incidental(TextLines(pen))
  {
    assert forall c :: c in TextLines(pen) ==> c.FillText?;
  }

  lemma TextInnerIncidental(pen: Pen)
    requires pen.calculative.textDrawRect.Some?
    ensures Incidental(TextInner(pen))
  {
    var head := [SetFillStyle(Color(OrStr(pen.textStyle.textColor, pen.style.color)))];
    var a := head + TextBackground(pen);
    var b := a + TextFontCalls(pen.textStyle);
    var c := b + BaselineCalls(pen.textStyle);
    TextPartsQuiet(pen);
    IncidentalConcat(head, TextBackground(pen));
    IncidentalConcat(a, TextFontCalls(pen.textStyle));
    IncidentalConcat(b, BaselineCalls(pen.textStyle));
    IncidentalConcat(c, TextLines(pen));
  }

  /** The text step neither paints the path nor makes a guarded setting. */
  lemma TextIncidental(pen: Pen)
    requires pen.textStyle.text != "" ==> pen.calculative.textDrawRect.Some?
    ensures Incidental(TextCalls(pen))
  {
    if pen.textStyle.text != "" {
      TextInnerIncidental(pen);
      BracketIncidental(TextInner(pen));
    }
  }

  lemma IconNeutral(pen: Pen, opts: RenderOptions)
    requires IconReady(pen)
    ensures Neutral(IconCalls(pen, opts))
  {
    if DrawsImage(pen) {
      ImageQuiet(pen);
      FlatNeutral(ImageInner(pen));
      BracketNeutral(ImageInner(pen));
    } else if DrawsGlyph(pen) {
      GlyphQuiet(pen, opts);
      FlatNeutral(GlyphInner(pen, opts));
      BracketNeutral(GlyphInner(pen, opts));
    } else {
      FlatNeutral([]);
    }
  }

  lemma TextNeutral(pen: Pen)
    requires pen.textStyle.text != "" ==> pen.calculative.textDrawRect.Some?
    ensures Neutral(TextCalls(pen))
  {
    if pen.textStyle.text != "" {
      var tr := pen.calculative.textDrawRect.value;
      var ts := pen.textStyle;
      var head := [SetFillStyle(Color(OrStr(ts.textColor, pen.style.color)))];
      var font := TextFontCalls(ts);
      var baseline := BaselineCalls(ts);
      var lines := TextLines(pen);
      TextPartsQuiet(pen);
      FlatNeutral(head);
      if ts.textBackground != "" {
        var inner := [SetFillStyle(Color(ts.textBackground)),
                      FillRect(tr.x - (if ts.textAlign == "right" then tr.width else 0.0), tr.y, tr.width, tr.height)];
        FlatNeutral(inner);
        BracketNeutral(inner);
      } else {
        FlatNeutral([]);
      }
      NeutralConcat(head, TextBackground(pen));
      FlatNeutral(font);
      NeutralConcat(head + TextBackground(pen), font);
      FlatNeutral(baseline);
      NeutralConcat(head + TextBackground(pen) + font, baseline);
      FlatNeutral(lines);
      NeutralConcat(head + TextBackground(pen) + font + baseline, lines);
      BracketNeutral(TextInner(pen));
    } else {
      FlatNeutral([]);
    }
  }

  lemma BodyNeutral(pen: Pen, opts: RenderOptions)
    requires RenderReady(pen)
    ensures Neutral(Body(pen, opts))
  {
    var setup := [BeginPath] + Setup(pen, opts);
    var paint := PaintCalls(StyleCalls(pen, opts).1);
    SetupFlat(pen, opts);
    FlatNeutral(setup);
    FlatNeutral(paint);
    NeutralConcat(setup, paint);
    IconNeutral(pen, opts);
    NeutralConcat(setup + paint, IconCalls(pen, opts));
    TextNeutral(pen);
    NeutralConcat(setup + paint + IconCalls(pen, opts), TextCalls(pen));
  }

  /** With a path, the trace is balanced, and so is everything between its
      first save and last restore: the outer pair encloses the whole pass. */
  lemma RenderBalanced(pen: Pen, opts: RenderOptions)
    requires RenderReady(pen)
    ensures var trace := RenderPen(pen, true, opts);
      Balanced(trace) && Balanced(trace[1..|trace| - 1])
  {
    var trace := RenderPen(pen, true, opts);
    BodyNeutral(pen, opts);
    BracketNeutral(Body(pen, opts));
    assert trace[1..|trace| - 1] == Body(pen, opts);
    assert Replay(trace, 0) == Some(0);
    assert Replay(Body(pen, opts), 0) == Some(0);
  }

  /** A pen with a world angle is turned about its centre right after the
      outer save and the path reset, before any style is set. */
  lemma RotationAboutCenter(pen: Pen, opts: RenderOptions)
    requires RenderReady(pen) && pen.calculative.worldRotate != 0.0
    ensures var trace := RenderPen(pen, true, opts);
      |trace| >= 5 && trace[2..5] == RotateAbout(pen.center.value, pen.calculative.worldRotate)
  {
    var trace := RenderPen(pen, true, opts);
    var rot := WorldRotation(pen);
    var setup := Setup(pen, opts);
    assert |rot| == 3;
    forall k | 0 <= k < 3
      ensures trace[2 + k] == rot[k]
    {
      assert setup[k] == rot[k];
      assert Body(pen, opts)[1 + k] == setup[k];
    }
    assert trace[2..5] == rot;
  }

  // ---------------------------------------------------------------------
  // Fill and stroke.

  /** Whether a fill is due, stated per state: hover and active fill when
      their background (or its fallback) is set; the normal state fills from
      `background` when no background image is configured, and otherwise when
      the background image or a configured stroke image is loaded. */
  predicate Fills(pen: Pen, opts: RenderOptions)
  {
    if pen.calculative.hover then OrStr(pen.style.hoverBackground, opts.hoverBackground) != ""
    else if pen.calculative.active then OrStr(pen.style.activeBackground, opts.activeBackground) != ""
    else if pen.style.backgroundImage == "" then pen.style.background != ""
    else pen.calculative.backgroundImgLoaded || (pen.style.strokeImage != "" && pen.calculative.strokeImgLoaded)
  }

  lemma FillDecision(pen: Pen, opts: RenderOptions)
    ensures StyleCalls(pen, opts).1 == Fills(pen, opts)
  {
  }

  /** No fill or stroke of the path outside the paint step. */
  predicate Unpainted(calls: seq<DrawCall>)
  {
    FillPath !in calls && StrokePath !in calls
  }

  lemma OnlyPaintPaints(pen: Pen, opts: RenderOptions)
    requires RenderReady(pen)
    ensures Unpainted([BeginPath] + Setup(pen, opts))
    ensures Unpainted(IconCalls(pen, opts))
    ensures Unpainted(TextCalls(pen))
  {
    SetupTame(pen, opts);
    assert FillPath !in [BeginPath] + Setup(pen, opts) && StrokePath !in [BeginPath] + Setup(pen, opts) by {
      var s := [BeginPath] + Setup(pen, opts);
      assert forall c :: c in s ==> !Paints(c);
    }
    IconIncidental(pen, opts);
    TextIncidental(pen);
  }

  /** The path is stroked exactly once, filled exactly when a fill is due,
      and the fill comes immediately before the stroke. */
  lemma StrokeOnceFillFirst(pen: Pen, opts: RenderOptions)
    requires RenderReady(pen)
    ensures var trace := RenderPen(pen, true, opts);
      && multiset(trace)[StrokePath] == 1
      && multiset(trace)[FillPath] == (if Fills(pen, opts) then 1 else 0)
      && (Fills(pen, opts) ==>
            exists i :: 0 <= i < |trace| - 1 && trace[i] == FillPath && trace[i + 1] == StrokePath)
  {
    FillDecision(pen, opts);
    BodyCounts(pen, opts);
    BracketCount(Body(pen, opts), StrokePath);
    BracketCount(Body(pen, opts), FillPath);
    if Fills(pen, opts) {
      FillRightBeforeStroke(pen, opts);
    }
  }

  lemma BracketCount(body: seq<DrawCall>, x: DrawCall)
    requires x != Save && x != Restore
    ensures multiset(Bracket(body))[x] == multiset(body)[x]
  {
  }

  lemma BodyCounts(pen: Pen, opts: RenderOptions)
    requires RenderReady(pen)
    ensures multiset(Body(pen, opts))[StrokePath] == 1
    ensures multiset(Body(pen, opts))[FillPath] == (if StyleCalls(pen, opts).1 then 1 else 0)
  {
    var setup := [BeginPath] + Setup(pen, opts);
    OnlyPaintPaints(pen, opts);
    PaintCount(StyleCalls(pen, opts).1);
    UnpaintedCount(setup);
    UnpaintedCount(IconCalls(pen, opts));
    UnpaintedCount(TextCalls(pen));
  }

  lemma FillRightBeforeStroke(pen: Pen, opts: RenderOptions)
    requires RenderReady(pen) && StyleCalls(pen, opts).1
    ensures var trace := RenderPen(pen, true, opts);
      exists i :: 0 <= i < |trace| - 1 && trace[i] == FillPath && trace[i + 1] == StrokePath
  {
    var pre := [BeginPath] + Setup(pen, opts);
    var post := IconCalls(pen, opts) + TextCalls(pen);
    var trace := RenderPen(pen, true, opts);
    assert trace == Bracket(pre + [FillPath, StrokePath] + post) by {
      assert PaintCalls(StyleCalls(pen, opts).1) == [FillPath, StrokePath];
      Regroup(pre, [FillPath, StrokePath], IconCalls(pen, opts), TextCalls(pen));
    }
    AdjacentPair(trace, pre, post);
  }

  /** A bracketed fill-then-stroke pair shows up as adjacent calls. */
  lemma AdjacentPair(trace: seq<DrawCall>, pre: seq<DrawCall>, post: seq<DrawCall>)
    requires trace == Bracket(pre + [FillPath, StrokePath] + post)
    ensures exists i :: 0 <= i < |trace| - 1 && trace[i] == FillPath && trace[i + 1] == StrokePath
  {
    PairInBracket(pre, post);
    var i := |pre| + 1;
    assert 0 <= i < |trace| - 1 && trace[i] == FillPath && trace[i + 1] == StrokePath;
  }

  /** Regrouping a four-part concatenation. */
  lemma Regroup<T>(a: seq<T>, b: seq<T>, c: seq<T>, d: seq<T>)
    ensures a + b + c + d == a + b + (c + d)
  {
  }

  lemma PairInBracket(pre: seq<DrawCall>, post: seq<DrawCall>)
    ensures var t := Bracket(pre + [FillPath, StrokePath] + post);
      |pre| + 2 < |t| && t[|pre| + 1] == FillPath && t[|pre| + 2] == StrokePath
  {
  }

  lemma PaintCount(fill: bool)
    ensures multiset(PaintCalls(fill))[StrokePath] == 1
    ensures multiset(PaintCalls(fill))[FillPath] == (if fill then 1 else 0)
  {
  }

  lemma UnpaintedCount(calls: seq<DrawCall>)
    requires Unpainted(calls)
    ensures multiset(calls)[StrokePath] == 0 && multiset(calls)[FillPath] == 0
  {
  }

  // ---------------------------------------------------------------------
  // State precedence.

  /** Under hover, the styles come from the hover colours (or the editor's
      fallbacks) alone: the active flag and every normal-state field are
      ignored. */
  lemma HoverOverrides(pen: Pen, other: Pen, opts: RenderOptions)
    requires pen.calculative.hover && other.calculative.hover
    requires pen.style.hoverColor == other.style.hoverColor
    requires pen.style.hoverBackground == other.style.hoverBackground
    ensures StyleCalls(pen, opts) == StyleCalls(other, opts)
    ensures StyleCalls(pen, opts).0 ==
      [SetStrokeStyle(Color(OrStr(pen.style.hoverColor, opts.hoverColor))),
       SetFillStyle(Color(OrStr(pen.style.hoverBackground, opts.hoverBackground)))]
  {
  }

  /** Active without hover: the active colours alone decide, whatever the
      normal-state fields say. */
  lemma ActiveOverridesNormal(pen: Pen, other: Pen, opts: RenderOptions)
    requires !pen.calculative.hover && pen.calculative.active
    requires !other.calculative.hover && other.calculative.active
    requires pen.style.activeColor == other.style.activeColor
    requires pen.style.activeBackground == other.style.activeBackground
    ensures StyleCalls(pen, opts) == StyleCalls(other, opts)
    ensures StyleCalls(pen, opts).0 ==
      [SetStrokeStyle(Color(OrStr(pen.style.activeColor, opts.activeColor))),
       SetFillStyle(Color(OrStr(pen.style.activeBackground, opts.activeBackground)))]
  {
  }

  /** In the normal state a loaded stroke pattern forces a fill when a
      background image is configured. */
  lemma StrokePatternForcesFill(pen: Pen, opts: RenderOptions)
    requires !pen.calculative.hover && !pen.calculative.active
    requires pen.style.strokeImage != "" && pen.calculative.strokeImgLoaded
    requires pen.style.backgroundImage != ""
    ensures StyleCalls(pen, opts).1
    ensures SetStrokeStyle(Pattern(StrokeImage)) in StyleCalls(pen, opts).0
  {
  }

  /** Without a background image, `background` alone decides the fill, even
      over a loaded stroke pattern. */
  lemma BackgroundDecidesFill(pen: Pen, opts: RenderOptions)
    requires !pen.calculative.hover && !pen.calculative.active
    requires pen.style.backgroundImage == ""
    ensures StyleCalls(pen, opts).1 <==> pen.style.background != ""
    ensures SetFillStyle(Color(pen.style.background)) in StyleCalls(pen, opts).0
  {
  }

  /** A loaded stroke pattern with a configured but unloaded background image
      fills the path although no fill style was set in this pass. */
  lemma FillWithoutFillStyle(pen: Pen, opts: RenderOptions)
    requires !pen.calculative.hover && !pen.calculative.active
    requires pen.style.strokeImage != "" && pen.calculative.strokeImgLoaded
    requires pen.style.backgroundImage != "" && !pen.calculative.backgroundImgLoaded
    ensures StyleCalls(pen, opts).1
    ensures forall c :: c in StyleCalls(pen, opts).0 ==> !c.SetFillStyle?
  {
  }

  // ---------------------------------------------------------------------
  // Guarded settings.

  /** A call of the trace comes from exactly one step of the pass. */
  lemma TraceMembers(pen: Pen, opts: RenderOptions, c: DrawCall)
    requires RenderReady(pen)
    ensures c in RenderPen(pen, true, opts) <==>
      || c in [Save, BeginPath, Restore]
      || c in WorldRotation(pen) || c in LineWidthCalls(pen) || c in StyleCalls(pen, opts).0
      || c in LineCapCalls(pen) || c in AlphaCalls(pen) || c in DashCalls(pen) || c in ShadowCalls(pen)
      || c in PaintCalls(StyleCalls(pen, opts).1) || c in IconCalls(pen, opts) || c in TextCalls(pen)
  {
  }

  /** The line width is set exactly when it exceeds 1, and to the pen's
      own width. */
  lemma LineWidthGuarded(pen: Pen, opts: RenderOptions)
    requires RenderReady(pen)
    ensures var trace := RenderPen(pen, true, opts);
      && ((exists c :: c in trace && c.SetLineWidth?) <==> pen.style.lineWidth > 1.0)
      && (forall c :: c in trace && c.SetLineWidth? ==> c.width == pen.style.lineWidth)
  {
    var trace := RenderPen(pen, true, opts);
    var w := pen.style.lineWidth;
    forall c | c in trace && c.SetLineWidth?
      ensures c in LineWidthCalls(pen)
    {
      SettingSource(pen, opts, c);
    }
    if w > 1.0 {
      StepInTrace(pen, opts, SetLineWidth(w));
    }
    WidthGuarded(trace, LineWidthCalls(pen), w);
  }

  /** The line-width facts for any trace whose widths all come from the
      line-width step and which contains that step's call. */
  lemma WidthGuarded(trace: seq<DrawCall>, step: seq<DrawCall>, w: real)
    requires step == if w > 1.0 then [SetLineWidth(w)] else []
    requires forall c :: c in trace && c.SetLineWidth? ==> c in step
    requires w > 1.0 ==> SetLineWidth(w) in trace
    ensures (exists c :: c in trace && c.SetLineWidth?) <==> w > 1.0
    ensures forall c :: c in trace && c.SetLineWidth? ==> c.width == w
  {
  }

  /** The global alpha is set exactly when one below 1 is given, and to
      that value. */
  lemma AlphaGuarded(pen: Pen, opts: RenderOptions)
    requires RenderReady(pen)
    ensures var trace := RenderPen(pen, true, opts);
      && ((exists c :: c in trace && c.SetGlobalAlpha?) <==>
            pen.style.globalAlpha.Some? && pen.style.globalAlpha.value < 1.0)
      && (forall c :: c in trace && c.SetGlobalAlpha? ==> c.alpha == pen.style.globalAlpha.value)
  {
    var trace := RenderPen(pen, true, opts);
    var a := pen.style.globalAlpha;
    forall c | c in trace && c.SetGlobalAlpha?
      ensures c in AlphaCalls(pen)
    {
      SettingSource(pen, opts, c);
    }
    if a.Some? && a.value < 1.0 {
      StepInTrace(pen, opts, SetGlobalAlpha(a.value));
    }
    AlphaStepGuarded(trace, AlphaCalls(pen), a);
  }

  /** The alpha facts for any trace whose alphas all come from the alpha
      step and which contains that step's call. */
  lemma AlphaStepGuarded(trace: seq<DrawCall>, step: seq<DrawCall>, a: Option<real>)
    requires step == if a.Some? && a.value < 1.0 then [SetGlobalAlpha(a.value)] else []
    requires forall c :: c in trace && c.SetGlobalAlpha? ==> c in step
    requires a.Some? && a.value < 1.0 ==> SetGlobalAlpha(a.value) in trace
    ensures (exists c :: c in trace && c.SetGlobalAlpha?) <==> a.Some? && a.value < 1.0
    ensures forall c :: c in trace && c.SetGlobalAlpha? ==> c.alpha == a.value
  {
  }

  /** A call of a guarded setup step reaches the trace. */
  lemma StepInTrace(pen: Pen, opts: RenderOptions, c: DrawCall)
    requires RenderReady(pen)
    requires || c in LineWidthCalls(pen) || c in LineCapCalls(pen) || c in AlphaCalls(pen)
             || c in DashCalls(pen) || c in ShadowCalls(pen)
    ensures c in RenderPen(pen, true, opts)
  {
    assert c in Setup(pen, opts);
    assert c in Body(pen, opts);
  }

  /** A line cap is set exactly when the pen names one or is a line, and
      then to the named cap, or `round` for a line without one. */
  lemma LineCapGuarded(pen: Pen, opts: RenderOptions)
    requires RenderReady(pen)
    ensures var trace := RenderPen(pen, true, opts);
      && ((exists c :: c in trace && c.SetLineCap?) <==> pen.style.lineCap != "" || pen.penType == Line)
      && (forall c :: c in trace && c.SetLineCap? ==>
            c.cap == (if pen.style.lineCap != "" then pen.style.lineCap else "round"))
  {
    var trace := RenderPen(pen, true, opts);
    forall c | c in trace && c.SetLineCap?
      ensures c in LineCapCalls(pen)
    {
      SettingSource(pen, opts, c);
    }
    if pen.style.lineCap != "" || pen.penType == Line {
      StepInTrace(pen, opts, LineCapCalls(pen)[0]);
    }
    CapGuarded(trace, LineCapCalls(pen), pen.style.lineCap, pen.penType == Line);
  }

  /** The line-cap facts for any trace whose caps all come from the
      line-cap step and which contains that step's call. */
  lemma CapGuarded(trace: seq<DrawCall>, step: seq<DrawCall>, cap: string, isLine: bool)
    requires step == if cap != "" then [SetLineCap(cap)] else if isLine then [SetLineCap("round")] else []
    requires forall c :: c in trace && c.SetLineCap? ==> c in step
    requires step != [] ==> step[0] in trace
    ensures (exists c :: c in trace && c.SetLineCap?) <==> cap != "" || isLine
    ensures forall c :: c in trace && c.SetLineCap? ==> c.cap == (if cap != "" then cap else "round")
  {
  }

  /** A dash pattern is set exactly when one is present (even an empty one),
      a dash offset exactly when it is nonzero, each to the pen's value. */
  lemma DashGuarded(pen: Pen, opts: RenderOptions)
    requires RenderReady(pen)
    ensures var trace := RenderPen(pen, true, opts);
      && ((exists c :: c in trace && c.SetLineDash?) <==> pen.style.lineDash.Some?)
      && (forall c :: c in trace && c.SetLineDash? ==> c.dash == pen.style.lineDash.value)
      && ((exists c :: c in trace && c.SetLineDashOffset?) <==> pen.style.lineDashOffset != 0.0)
      && (forall c :: c in trace && c.SetLineDashOffset? ==> c.offset == pen.style.lineDashOffset)
  {
    var trace := RenderPen(pen, true, opts);
    var s := pen.style;
    forall c | c in trace && (c.SetLineDash? || c.SetLineDashOffset?)
      ensures c in DashCalls(pen)
    {
      SettingSource(pen, opts, c);
    }
    if s.lineDash.Some? {
      StepInTrace(pen, opts, SetLineDash(s.lineDash.value));
    }
    if s.lineDashOffset != 0.0 {
      StepInTrace(pen, opts, SetLineDashOffset(s.lineDashOffset));
    }
    DashStepGuarded(trace, DashCalls(pen), s.lineDash, s.lineDashOffset);
  }

  /** The dash facts for any trace whose dash settings all come from the
      dash step and which contains that step's calls. */
  lemma DashStepGuarded(trace: seq<DrawCall>, step: seq<DrawCall>, dash: Option<seq<real>>, offset: real)
    requires step == (if dash.Some? then [SetLineDash(dash.value)] else [])
      + (if offset != 0.0 then [SetLineDashOffset(offset)] else [])
    requires forall c :: c in trace && (c.SetLineDash? || c.SetLineDashOffset?) ==> c in step
    requires dash.Some? ==> SetLineDash(dash.value) in trace
    requires offset != 0.0 ==> SetLineDashOffset(offset) in trace
    ensures (exists c :: c in trace && c.SetLineDash?) <==> dash.Some?
    ensures forall c :: c in trace && c.SetLineDash? ==> c.dash == dash.value
    ensures (exists c :: c in trace && c.SetLineDashOffset?) <==> offset != 0.0
    ensures forall c :: c in trace && c.SetLineDashOffset? ==> c.offset == offset
  {
  }

  /** The shadow offsets are set exactly when a shadow colour is given, and
      to the pen's own offsets. */
  lemma ShadowGuarded(pen: Pen, opts: RenderOptions)
    requires RenderReady(pen)
    ensures var trace := RenderPen(pen, true, opts);
      && ((exists c :: c in trace && c.SetShadowOffsetX?) <==> pen.style.shadowColor != "")
      && (forall c :: c in trace && c.SetShadowOffsetX? ==> c.offsetX == pen.style.shadowOffsetX)
      && ((exists c :: c in trace && c.SetShadowOffsetY?) <==> pen.style.shadowColor != "")
      && (forall c :: c in trace && c.SetShadowOffsetY? ==> c.offsetY == pen.style.shadowOffsetY)
  {
    var trace := RenderPen(pen, true, opts);
    var s := pen.style;
    ShadowOffsetsFromShadow(pen, opts);
    if s.shadowColor != "" {
      StepInTrace(pen, opts, SetShadowOffsetX(s.shadowOffsetX));
      StepInTrace(pen, opts, SetShadowOffsetY(s.shadowOffsetY));
    }
    OffsetsGuarded(trace, ShadowCalls(pen), s.shadowColor, s.shadowOffsetX, s.shadowOffsetY, s.shadowBlur);
  }

  /** The offset facts for any trace whose offsets all come from a shadow
      step and which contains that step's offsets. */
  lemma OffsetsGuarded(trace: seq<DrawCall>, shadow: seq<DrawCall>, color: string, dx: real, dy: real, blur: real)
    requires shadow == if color != "" then
      [SetShadowColor(color), SetShadowOffsetX(dx), SetShadowOffsetY(dy), SetShadowBlur(blur)] else []
    requires forall c :: c in trace && (c.SetShadowOffsetX? || c.SetShadowOffsetY?) ==> c in shadow
    requires color != "" ==> SetShadowOffsetX(dx) in trace && SetShadowOffsetY(dy) in trace
    ensures (exists c :: c in trace && c.SetShadowOffsetX?) <==> color != ""
    ensures forall c :: c in trace && c.SetShadowOffsetX? ==> c.offsetX == dx
    ensures (exists c :: c in trace && c.SetShadowOffsetY?) <==> color != ""
    ensures forall c :: c in trace && c.SetShadowOffsetY? ==> c.offsetY == dy
  {
  }

  /** Every shadow offset in the trace comes from the shadow step. */
  lemma ShadowOffsetsFromShadow(pen: Pen, opts: RenderOptions)
    requires RenderReady(pen)
    ensures forall c :: c in RenderPen(pen, true, opts) && (c.SetShadowOffsetX? || c.SetShadowOffsetY?) ==>
      c in ShadowCalls(pen)
  {
    forall c | c in RenderPen(pen, true, opts) && (c.SetShadowOffsetX? || c.SetShadowOffsetY?)
      ensures c in ShadowCalls(pen)
    {
      SettingSource(pen, opts, c);
    }
  }

  /** Before the path is painted, the shadow colour and blur are set exactly
      when a shadow colour is given, and to the pen's own values. */
  lemma ShadowSetup(pen: Pen, opts: RenderOptions)
    requires pen.calculative.worldRotate != 0.0 ==> pen.center.Some?
    ensures var setup := Setup(pen, opts);
      && ((exists c :: c in setup && c.SetShadowBlur?) <==> pen.style.shadowColor != "")
      && (forall c :: c in setup && c.SetShadowBlur? ==> c.blur == pen.style.shadowBlur)
      && ((exists c :: c in setup && c.SetShadowColor?) <==> pen.style.shadowColor != "")
      && (forall c :: c in setup && c.SetShadowColor? ==> c.color == pen.style.shadowColor)
  {
    var head := WorldRotation(pen) + LineWidthCalls(pen) + StyleCalls(pen, opts).0 + LineCapCalls(pen)
      + AlphaCalls(pen) + DashCalls(pen);
    assert ShadowFree(head) by {
      SetupHeadShadowFree(pen, opts);
    }
    ShadowFreeHead(head, ShadowCalls(pen));
    if pen.style.shadowColor != "" {
      assert SetShadowBlur(pen.style.shadowBlur) in Setup(pen, opts);
      assert SetShadowColor(pen.style.shadowColor) in Setup(pen, opts);
    }
  }

  /** No call in `calls` sets the shadow colour or blur. */
  predicate ShadowFree(calls: seq<DrawCall>)
  {
    forall c :: c in calls ==> !c.SetShadowBlur? && !c.SetShadowColor?
  }

  /** The setup steps before the shadow step leave the shadow alone. */
  lemma SetupHeadShadowFree(pen: Pen, opts: RenderOptions)
    requires pen.calculative.worldRotate != 0.0 ==> pen.center.Some?
    ensures ShadowFree(WorldRotation(pen) + LineWidthCalls(pen) + StyleCalls(pen, opts).0 + LineCapCalls(pen)
      + AlphaCalls(pen) + DashCalls(pen))
  {
    TurnQuiet(pen.center, pen.calculative.worldRotate);
  }

  /** A shadow setting after a shadow-free head comes from the tail. */
  lemma ShadowFreeHead(head: seq<DrawCall>, tail: seq<DrawCall>)
    requires ShadowFree(head)
    ensures forall c :: c in head + tail && (c.SetShadowBlur? || c.SetShadowColor?) ==> c in tail
  {
  }

  /** A guarded setting in the trace comes from the step that makes it. */
  lemma SettingSource(pen: Pen, opts: RenderOptions, c: DrawCall)
    requires RenderReady(pen) && c in RenderPen(pen, true, opts) && GuardedSetting(c)
    ensures c.SetLineWidth? ==> c in LineWidthCalls(pen)
    ensures c.SetGlobalAlpha? ==> c in AlphaCalls(pen)
    ensures c.SetShadowOffsetX? || c.SetShadowOffsetY? ==> c in ShadowCalls(pen)
    ensures c.SetLineCap? ==> c in LineCapCalls(pen)
    ensures c.SetLineDash? || c.SetLineDashOffset? ==> c in DashCalls(pen)
  {
    TraceMembers(pen, opts, c);
    assert c !in [Save, BeginPath, Restore];
    assert c !in PaintCalls(StyleCalls(pen, opts).1);
    assert c !in IconCalls(pen, opts) by {
      IconIncidental(pen, opts);
    }
    assert c !in TextCalls(pen) by {
      TextIncidental(pen);
    }
    SetupSettings(pen, opts, c);
  }

  /** Among the setup steps, each guarded setting is made by its own step. */
  lemma SetupSettings(pen: Pen, opts: RenderOptions, c: DrawCall)
    requires pen.calculative.worldRotate != 0.0 ==> pen.center.Some?
    requires GuardedSetting(c)
    ensures c !in WorldRotation(pen) && c !in StyleCalls(pen, opts).0
    ensures c in LineCapCalls(pen) ==> c.SetLineCap?
    ensures c in DashCalls(pen) ==> c.SetLineDash? || c.SetLineDashOffset?
    ensures c in LineWidthCalls(pen) ==> c.SetLineWidth?
    ensures c in AlphaCalls(pen) ==> c.SetGlobalAlpha?
    ensures c in ShadowCalls(pen) ==> c.SetShadowOffsetX? || c.SetShadowOffsetY?
  {
    TurnQuiet(pen.center, pen.calculative.worldRotate);
  }

  // ---------------------------------------------------------------------
  // Icon and text geometry.

  lemma RatioScale(p: real, q: real, v: real)
    requires q != 0.0
    ensures p / q * v * q == p * v
  {
  }

  /** With both natural sizes known, the drawn image keeps the natural
      aspect ratio. */
  lemma ImageKeepsAspect(rect: Rect, iconWidth: Option<real>, iconHeight: Option<real>,
                         naturalWidth: real, naturalHeight: real)
    requires naturalWidth != 0.0 && naturalHeight != 0.0
    ensures var b := ImageBox(rect, iconWidth, iconHeight, naturalWidth, naturalHeight);
      b.width * naturalHeight == b.height * naturalWidth
  {
    var b := ImageBox(rect, iconWidth, iconHeight, naturalWidth, naturalHeight);
    if Truthy(iconWidth) {
      RatioScale(naturalHeight, naturalWidth, b.width);
    } else {
      RatioScale(naturalWidth, naturalHeight, b.height);
    }
  }

  /** A 200 by 100 image drawn with only an icon width set is half as high
      as that width. */
  lemma ImageAspectExample(rect: Rect, iconWidth: real, iconHeight: Option<real>)
    requires iconWidth != 0.0
    ensures ImageBox(rect, Some(iconWidth), iconHeight, 200.0, 100.0).width == iconWidth
    ensures ImageBox(rect, Some(iconWidth), iconHeight, 200.0, 100.0).height == iconWidth * (100.0 / 200.0)
  {
  }

  /** Consecutive text lines are one line height (font size times line
      height) apart, and the first sits `shift` line heights below the top. */
  lemma LineSpacing(lines: seq<string>, x: real, top: real, shift: real, fontSize: real, lineHeight: real, i: nat)
    requires i + 1 < |lines|
    ensures var calls := TextLineCalls(lines, x, top, shift, fontSize, lineHeight);
      calls[i + 1].y - calls[i].y == fontSize * lineHeight
  {
    var k := i as real + shift;
    Advance(k, fontSize, lineHeight);
  }

  lemma Advance(k: real, f: real, l: real)
    ensures (k + 1.0) * f * l - k * f * l == f * l
  {
    assert (k + 1.0) * f * l == k * f * l + f * l;
  }

  /** The first line sits at the top for a `top` baseline, one line lower
      for `bottom`, and half a line lower for any other baseline. */
  lemma FirstLine(lines: seq<string>, x: real, top: real, fontSize: real, lineHeight: real, baseline: string)
    requires |lines| > 0
    ensures TextLineCalls(lines, x, top, BaselineShift("top"), fontSize, lineHeight)[0].y == top
    ensures TextLineCalls(lines, x, top, BaselineShift("bottom"), fontSize, lineHeight)[0].y
            == top + fontSize * lineHeight
    ensures baseline != "top" && baseline != "bottom" ==>
      TextLineCalls(lines, x, top, BaselineShift(baseline), fontSize, lineHeight)[0].y
        == top + 0.5 * fontSize * lineHeight
  {
  }

  // ---------------------------------------------------------------------
  // The icon rectangle and the renderer.

  /** The rectangle as the source builds it has no centre, so an icon that
      rotates about that centre cannot be drawn: the renderer would read a
      field of `undefined`. */
  lemma AsWrittenIconRectBlocksRotation(pens: Table, pen: Pen)
    requires pen.parentId in pens && pen.calculative.worldRect.Some? && AsWrittenDefined(pen)
    requires (DrawsImage(pen) && pen.iconStyle.iconRotate != 0.0)
          || (DrawsGlyph(pen) && pen.calculative.worldRect.value.rotate != 0.0)
    ensures !IconReady(pen.(calculative := pen.calculative.(worldIconRect := Some(IconRectAsWritten(pens, pen)))))
  {
  }

  /** The corrected icon rectangle gives the renderer everything its icon
      branch reads. */
  lemma CorrectedIconRectIsReady(pens: Table, pen: Pen)
    requires pen.parentId in pens && pen.calculative.worldRect.Some? && IconDefined(pen)
    ensures IconReady(CalcIconRect(pens, pen))
  {
  }
}

=== FILE: world_rect.dfy ===
/** World-rectangle resolution: a pen's local, possibly parent-relative
    geometry turned into an absolute rectangle, cached in the pen's sidecar. */
module WorldRect {
  import opened JsValues
  import opened Geometry
  import opened Pens

  /** A local coordinate or extent of at least 1 is absolute; anything
      smaller (negative values included) is a fraction of the parent's
      resolved extent. */
  function Scale(local: real, parentExtent: real): real
  {
    if local >= 1.0 then local else parentExtent * local
  }

  /** The pen stored under `id` can be resolved with recursion depth `n`:
      it is in the table, and unless it is a root its parent is in the table
      and either has a cached world rectangle or is resolvable in turn. */
  ghost predicate Resolvable(pens: Table, id: string, n: nat)
    decreases n
  {
    && id in pens
    && (IsRoot(pens[id]) ||
        (&& pens[id].parentId in pens
         && (|| pens[pens[id].parentId].calculative.worldRect.Some?
             || (n > 0 && Resolvable(pens, pens[id].parentId, n - 1)))))
  }

  /** The pen with `r` cached as its world rectangle, nothing else changed. */
  function WithWorldRect(pen: Pen, r: Rect): Pen
  {
    pen.(calculative := pen.calculative.(worldRect := Some(r)))
  }

  /** `after` differs from `before` at most in the cached world rectangle. */
  predicate OnlyWorldRectChanged(before: Pen, after: Pen)
  {
    after == before.(calculative := before.calculative.(worldRect := after.calculative.worldRect))
  }

  /** How a child's rectangle follows from its parent's resolved rectangle. */
  predicate ChildPlacement(parent: Rect, pen: Pen, r: Rect)
  {
    && r.x == parent.x + Scale(pen.x, parent.width)
    && r.y == parent.y + Scale(pen.y, parent.height)
    && r.width == Scale(pen.width, parent.width)
    && r.height == Scale(pen.height, parent.height)
    && r.rotate == parent.rotate + pen.rotate
  }

  /** The table with `r` cached for the pen under `id`. */
  function Store(pens: Table, id: string, r: Rect): (t: Table)
    requires id in pens
    ensures t.Keys == pens.Keys
    ensures t[id] == WithWorldRect(pens[id], r)
    ensures forall k :: k in pens && k != id ==> t[k] == pens[k]
  {
    pens[id := WithWorldRect(pens[id], r)]
  }

  /** The rectangle of a child placed inside its parent's rectangle. */
  function ChildRect(parent: Rect, pen: Pen): (r: Rect)
    ensures Consistent(r) && ChildPlacement(parent, pen, r)
  {
    MakeRect(
      parent.x + Scale(pen.x, parent.width),
      parent.y + Scale(pen.y, parent.height),
      Scale(pen.width, parent.width),
      Scale(pen.height, parent.height),
      parent.rotate + pen.rotate)
  }

  /** A pen whose parent is itself cannot need its parent resolved. */
  lemma {:induction false} SelfParentIsCached(pens: Table, id: string, n: nat)
    requires Resolvable(pens, id, n) && !IsRoot(pens[id])
    ensures pens[id].parentId == id ==> pens[id].calculative.worldRect.Some?
    decreases n
  {
    if pens[id].parentId == id && pens[id].calculative.worldRect.None? {
      SelfParentIsCached(pens, id, n - 1);
    }
  }

  /** `t` is `pens` with some world rectangles filled in: same keys, only
      caches changed, every changed entry now cached, and no cached entry
      touched except possibly the one under `id`. */
  predicate FillsCaches(pens: Table, t: Table, id: string)
  {
    && t.Keys == pens.Keys
    && (forall k :: k in pens ==> OnlyWorldRectChanged(pens[k], t[k]))
    && (forall k :: k in pens && k != id && pens[k].calculative.worldRect.Some? ==> t[k] == pens[k])
    && (forall k :: k in pens && t[k] != pens[k] ==> t[k].calculative.worldRect.Some?)
  }

  /** Caching a child's rectangle after its uncached parent was resolved. */
  lemma StoreAfterParent(pens: Table, up: Table, parent: string, id: string, r: Rect)
    requires id in pens && parent in pens && parent != id
    requires pens[parent].calculative.worldRect.None?
    requires FillsCaches(pens, up, parent)
    ensures FillsCaches(pens, Store(up, id, r), id)
  {
    var t := Store(up, id, r);
    forall k | k in pens
      ensures OnlyWorldRectChanged(pens[k], t[k])
    {
      if k == id {
        assert OnlyWorldRectChanged(pens[k], up[k]);
      }
    }
  }

  /** Resolves the world rectangle of the pen stored under `id`, filling the
      caches of the pen and of every uncached ancestor, and returns the
      rectangle together with the updated table. */
  function CalcWorldRects(pens: Table, id: string, ghost n: nat): (res: (Rect, Table))
    requires Resolvable(pens, id, n)
    ensures Consistent(res.0)
    ensures res.1.Keys == pens.Keys
    ensures res.1[id] == WithWorldRect(pens[id], res.0)
    ensures FillsCaches(pens, res.1, id)
    ensures IsRoot(pens[id]) ==>
      && res.0.x == pens[id].x && res.0.y == pens[id].y
      && res.0.width == pens[id].width && res.0.height == pens[id].height
      && res.0.rotate == pens[id].rotate
    ensures !IsRoot(pens[id]) && pens[pens[id].parentId].calculative.worldRect.Some? ==>
      ChildPlacement(pens[pens[id].parentId].calculative.worldRect.value, pens[id], res.0)
    ensures !IsRoot(pens[id]) ==>
      && res.1[pens[id].parentId].calculative.worldRect.Some?
      && (pens[id].parentId != id ==>
            ChildPlacement(res.1[pens[id].parentId].calculative.worldRect.value, pens[id], res.0))
    ensures !IsRoot(pens[id]) && pens[pens[id].parentId].calculative.worldRect.None? ==>
      && n > 0 && Resolvable(pens, pens[id].parentId, n - 1)
      && res.1[pens[id].parentId].calculative.worldRect == Some(CalcWorldRects(pens, pens[id].parentId, n - 1).0)
      && res.1 == Store(CalcWorldRects(pens, pens[id].parentId, n - 1).1, id, res.0)
    ensures IsRoot(pens[id]) || pens[pens[id].parentId].calculative.worldRect.Some? ==>
      res.1 == Store(pens, id, res.0)
    decreases n
  {
    var pen := pens[id];
    if IsRoot(pen) then
      var r := MakeRect(pen.x, pen.y, pen.width, pen.height, pen.rotate);
      (r, Store(pens, id, r))
    else if pens[pen.parentId].calculative.worldRect.Some? then
      var r := ChildRect(pens[pen.parentId].calculative.worldRect.value, pen);
      (r, Store(pens, id, r))
    else
      SelfParentIsCached(pens, id, n);
      var up := CalcWorldRects(pens, pen.parentId, n - 1);
      var r := ChildRect(up.0, pen);
      StoreAfterParent(pens, up.1, pen.parentId, id, r);
      (r, Store(up.1, id, r))
  }

  /** No pen in the table has a cached world rectangle. */
  predicate Unresolved(pens: Table)
  {
    forall k :: k in pens ==> pens[k].calculative.worldRect.None?
  }

  /** The sum of the local rotations along the ancestor chain of `id`. */
  ghost function ChainRotation(pens: Table, id: string, n: nat): real
    requires Resolvable(pens, id, n)
    decreases n
  {
    var pen := pens[id];
    if IsRoot(pen) then pen.rotate
    else if pens[pen.parentId].calculative.worldRect.Some? then
      pens[pen.parentId].calculative.worldRect.value.rotate + pen.rotate
    else ChainRotation(pens, pen.parentId, n - 1) + pen.rotate
  }

  /** Rotation composes additively: a resolved rotation is the sum of the
      local rotations along the chain, starting from the nearest cached
      ancestor rectangle (or the root). */
  lemma {:induction false} RotationComposes(pens: Table, id: string, n: nat)
    requires Resolvable(pens, id, n)
    ensures CalcWorldRects(pens, id, n).0.rotate == ChainRotation(pens, id, n)
    decreases n
  {
    var pen := pens[id];
    if !IsRoot(pen) && pens[pen.parentId].calculative.worldRect.None? {
      ResolveThroughParent(pens, id, n);
      RotationComposes(pens, pen.parentId, n - 1);
    }
  }

  /** A pen whose parent has no cached rectangle is placed in the parent's
      freshly resolved one. */
  lemma ResolveThroughParent(pens: Table, id: string, n: nat)
    requires Resolvable(pens, id, n) && !IsRoot(pens[id])
    requires pens[pens[id].parentId].calculative.worldRect.None?
    ensures n > 0 && Resolvable(pens, pens[id].parentId, n - 1)
    ensures CalcWorldRects(pens, id, n).0.rotate
      == CalcWorldRects(pens, pens[id].parentId, n - 1).0.rotate + pens[id].rotate
  {
    SelfParentIsCached(pens, id, n);
  }

  /** In a table with nothing cached, a child's parent is resolvable one
      level down. */
  lemma ParentResolvable(pens: Table, id: string, n: nat)
    requires Resolvable(pens, id, n) && Unresolved(pens) && !IsRoot(pens[id])
    ensures n > 0 && Resolvable(pens, pens[id].parentId, n - 1)
  {
  }

  /** In a table with nothing cached, the resolved rotation is the plain sum
      of the local rotations from the root down. */
  lemma {:induction false} UnresolvedRotationIsSum(pens: Table, id: string, n: nat)
    requires Resolvable(pens, id, n) && Unresolved(pens)
    ensures IsRoot(pens[id]) ==> CalcWorldRects(pens, id, n).0.rotate == pens[id].rotate
    ensures !IsRoot(pens[id]) ==>
      && n > 0 && Resolvable(pens, pens[id].parentId, n - 1)
      && CalcWorldRects(pens, id, n).0.rotate
           == pens[id].rotate + CalcWorldRects(pens, pens[id].parentId, n - 1).0.rotate
  {
    RotationComposes(pens, id, n);
    if !IsRoot(pens[id]) {
      ParentResolvable(pens, id, n);
      RotationComposes(pens, pens[id].parentId, n - 1);
    }
  }

  /** Two consistent rectangles with the same position, extent and angle
      are equal. */
  lemma ConsistentRectsAgree(a: Rect, b: Rect)
    requires Consistent(a) && Consistent(b)
    requires a.x == b.x && a.y == b.y && a.width == b.width && a.height == b.height
    requires a.rotate == b.rotate
    ensures a == b
  {
  }

  /** Resolving again over the table a resolution produced gives the same
      rectangle: the caches it filled are exactly what a recomputation would
      use. (A pen that is its own parent is excluded: each resolution moves it
      relative to its previous cached rectangle.) */
  lemma ResolutionIsStable(pens: Table, id: string, n: nat)
    requires Resolvable(pens, id, n) && pens[id].parentId != id
    ensures Resolvable(CalcWorldRects(pens, id, n).1, id, n)
    ensures CalcWorldRects(CalcWorldRects(pens, id, n).1, id, n).0 == CalcWorldRects(pens, id, n).0
  {
    var res := CalcWorldRects(pens, id, n);
    var pen := pens[id];
    assert res.1[id] == WithWorldRect(pen, res.0);
    if !IsRoot(pen) {
      var parent := res.1[pen.parentId].calculative.worldRect.value;
      assert ChildPlacement(parent, res.1[id], res.0) by {
        assert ChildPlacement(parent, pen, res.0);
      }
    }
    ResolvesTo(res.1, id, n, res.0);
  }

  /** A rectangle that is consistent and placed as the pen under `id`
      demands (from its own fields for a root, from its parent's cached
      rectangle otherwise) is what resolving `id` returns. */
  lemma ResolvesTo(t: Table, id: string, n: nat, r: Rect)
    requires id in t && Consistent(r)
    requires IsRoot(t[id]) ==>
      && r.x == t[id].x && r.y == t[id].y && r.width == t[id].width && r.height == t[id].height
      && r.rotate == t[id].rotate
    requires !IsRoot(t[id]) ==>
      && t[id].parentId in t && t[t[id].parentId].calculative.worldRect.Some?
      && ChildPlacement(t[t[id].parentId].calculative.worldRect.value, t[id], r)
    ensures Resolvable(t, id, n)
    ensures CalcWorldRects(t, id, n).0 == r
  {
    ConsistentRectsAgree(CalcWorldRects(t, id, n).0, r);
  }

  /** A plain unresolved pen: a 10 by 10 node at the origin, unstyled. */
  const Plain: Pen := Pen(
    "", "", Node, 0.0, 0.0, 10.0, 10.0, 0.0, None,
    Style(0.0, None, None, 0.0, "", "", "", "", "", "", "", "", 0.0, 0.0, 0.0, "", ""),
    TextStyle("", "", "", 0.0, 0.0, "", "", "", "", ""),
    IconStyle("", "", 0.0, None, None, None, None, "", "", 0.0),
    [], EmptyCalculative)

  /** Root `a` at 30 degrees, child `b` at 20, grandchild `c` at 10: the
      grandchild resolves to 60 degrees. */
  lemma GrandchildRotationExample()
    ensures var pens := map[
        "a" := Plain.(id := "a", rotate := 30.0),
        "b" := Plain.(id := "b", parentId := "a", rotate := 20.0),
        "c" := Plain.(id := "c", parentId := "b", rotate := 10.0)];
      Resolvable(pens, "c", 2) && CalcWorldRects(pens, "c", 2).0.rotate == 60.0
  {
    var pens := map[
        "a" := Plain.(id := "a", rotate := 30.0),
        "b" := Plain.(id := "b", parentId := "a", rotate := 20.0),
        "c" := Plain.(id := "c", parentId := "b", rotate := 10.0)];
    assert Unresolved(pens);
    assert Resolvable(pens, "a", 0);
    assert Resolvable(pens, "b", 1);
    assert Resolvable(pens, "c", 2);
    UnresolvedRotationIsSum(pens, "c", 2);
    UnresolvedRotationIsSum(pens, "b", 1);
    UnresolvedRotationIsSum(pens, "a", 0);
  }
}
